=== FILE: README.md ===
# Sparkd front end, modelled in Dafny

A model of the decision and formatting rules of the Sparkd dating-advice web
front end. The model covers the chat page (`PremiumDatingAdvicePage`), the
message composer, the mode tab strip, and the four network adapters it calls:

- `apiUrl`/`apiFetch`, which build URLs and complete fetch options;
- `fetchAdvice`, the chat request and reply classifier;
- `createCheckoutSession`;
- `fetchEntitlements`.

Every network call is an input to the model. A call either throws (a
transport failure) or yields a status and a parsed body, with `None` when the
body is not JSON. All operations are pure functions over immutable datatypes.

Modules:

| module | file | models |
|---|---|---|
| `Wrappers` | wrappers.dfy | `Option` and `Result` |
| `Js` | js.dfy | the JavaScript semantics the code leans on: JSON values, truthiness, `??` and `\|\|`, `String.prototype.trim`, the `/\/$/` replace, `${n}` for integers, `join`, property lookup |
| `Api` | api.dfy | src/lib/api.ts |
| `Advice` | advice.dfy | src/lib/advice.ts |
| `Checkout` | checkout.dfy | src/lib/checkout.ts |
| `Entitlements` | entitlements.dfy | src/lib/entitlements.ts |
| `PillTabs` | pill_tabs.dfy | src/components/ui/PillTabs.tsx |
| `Composer` | composer.dfy | src/components/ui/Composer.tsx |
| `Page` | page.dfy | src/components/PremiumDatingAdvicePage.tsx, one handler at a time |
| `Conversation` | conversation.dfy | the page as an event machine: typing, pressing the composer controls, the advice call settling, tabs, tone, modal and checkout; invariants over any event sequence |

A submission (`pushUser` or `pushStrategy`) is split into two steps:

- `Page.Begin` runs up to the `fetchAdvice` call. It applies the guard,
  appends the user's message optimistically and builds the payload.
- `Page.Complete` applies what `fetchAdvice` settled with.

Between the two steps, `Conversation.Machine` keeps the request in flight.
Message ids come from a counter (`State.nextId`), which stands in for
`crypto.randomUUID`. The ids are proved unique.

A paywall reply skips only the assistant's entry. `pushUser` appends the
user's message before the call (PremiumDatingAdvicePage.tsx:101-103). The
paywall branch (lines 122-126) opens the modal and returns, as its comment
"do not append assistant message" says, and the user's entry stays.
`Page.Complete` and `Conversation.RoundAppends` state this: a paywalled round
adds one entry, the user's.

The literals "Replies left: â€”" and "Hey â€” something glitched. …" hold the
bytes of an em dash decoded as Windows-1252. They are modelled as the
characters the page shows (`Page.Mojibake`).

## Model

| member | source | states |
|---|---|---|
| Js.Trim | src/components/PremiumDatingAdvicePage.tsx:98 | the trimmed text is the slice between the leading and trailing whitespace runs, and it neither starts nor ends with whitespace |
| Js.TrimEmptyIff | src/components/PremiumDatingAdvicePage.tsx:98-99 | a text trims to "" exactly when every character is ECMAScript whitespace |
| Js.TrimIdempotent | src/components/ui/Composer.tsx:97 | trimming an already trimmed text changes nothing |
| Js.NullishKeepsEmptyOrSkipsIt | src/lib/advice.ts:21 | `??` keeps an empty string while `\|\|` skips it |
| Js.Nullish | src/lib/advice.ts:16-21 | `a ?? b`: `a` when it is defined, else `b`, so an empty string is kept |
| Js.Or | src/lib/advice.ts:31 | `a \|\| b`: `a` when it is a non-empty string, else `b`; the result is truthy exactly when one of them is |
| Js.StripTrailingSlash | src/lib/api.ts:12 | removes exactly one trailing "/" when there is one, and otherwise returns the text unchanged |
| Js.ParseNatToString | src/components/PremiumDatingAdvicePage.tsx:362 | reading the decimal rendering of a count back gives the count |
| Js.IntToString | src/components/PremiumDatingAdvicePage.tsx:362 | `${n}` for an integer: non-empty and without leading zeros; for n >= 0 decimal digits that read back as n; for n < 0 a "-" followed by digits that read back as -n |
| Js.IntToStringInjective | src/components/PremiumDatingAdvicePage.tsx:362 | distinct integers render as distinct decimal strings |
| Js.Join | src/components/PremiumDatingAdvicePage.tsx:239-242 | `parts.join(sep)`: "" for no parts, the part itself for one; otherwise it starts with the first part, ends with the last, and is at least as long as both plus one separator |
| Api.Backend | src/lib/api.ts:1 | the configured backend origin when it is non-empty, else "https://api.sparkdd.live"; never empty |
| Api.WithLeadingSlash | src/lib/api.ts:4 | the path starts with "/"; it is unchanged exactly when it already did, otherwise "/" is put in front |
| Api.ApiUrl | src/lib/api.ts:3-13 | origin (none in development, else the backend minus one trailing "/") + "/api" + the slash-led path; in development it starts with "/api/"; it ends with the path |
| Api.ApiUrlSlashOptional | src/lib/api.ts:4 | `apiUrl("x")` equals `apiUrl("/x")` |
| Api.ApiUrlInjective | src/lib/api.ts:3-13 | distinct "/"-led paths give distinct URLs |
| Api.ApiUrlDoublePrefix | src/lib/api.ts:8-12 | a path that already starts with "/api/" gets the prefix twice |
| Api.WithCredentials | src/lib/api.ts:17 | credentials default to "include"; a caller's credentials win; every other option is kept |
| Api.WithCredentialsIdempotent | src/lib/api.ts:17 | completing the options twice is completing them once |
| Api.ApiFetch | src/lib/api.ts:15-19 | the request goes to `apiUrl(path)` with the caller's options completed by `WithCredentials`, so it always carries credentials |
| Advice.WireMode | src/lib/advice.ts:16-17 | `mode ?? tab`, with "dating_advice" replaced by "dating"; every other value passes through; undefined only when both are |
| Advice.MessageText | src/lib/advice.ts:21 | the first defined of message, text, userMessage and input, else "" (an empty string still wins) |
| Advice.WireFields | src/lib/advice.ts:37 | the posted object starts with `message`, its keys are among message, mode, sessionId and tone, and no key repeats |
| Advice.WireBodyRoundTrip | src/lib/advice.ts:20-37 | looking each key up in the posted JSON gives back the text, the normalised mode, the session id and the tone, with absent keys for undefined values |
| Advice.WireBodyDropsContext | src/lib/advice.ts:20-37 | conversation, situation and goal never affect the posted JSON |
| Advice.WireBodyHasNoOtherKeys | src/lib/advice.ts:37 | every other key is missing from the posted JSON |
| Advice.ChatUrl | src/lib/advice.ts:30-32 | the base (`ChatBase`) is `VITE_API_BASE \|\| NEXT_PUBLIC_API_BASE \|\| ""`, trimmed; with a non-blank base: the base minus one trailing "/" plus "/api/chat"; else "/api/chat"; it always ends in "/api/chat" |
| Advice.ChatUrlIgnoresApiClientConfig | src/lib/advice.ts:30-34 | the chat URL ignores the development flag and the backend override |
| Advice.BlankApiBaseGivesRelativeUrl | src/lib/advice.ts:31-32 | a whitespace-only VITE_API_BASE hides NEXT_PUBLIC_API_BASE and yields the relative "/api/chat" |
| Advice.AdviceRequest | src/lib/advice.ts:34-39 | a POST with credentials to the chat URL, carrying the wire body |
| Advice.FailureMessage | src/lib/advice.ts:44 | `data.error`, else `data.message`, else "Request failed (<status>)"; never empty |
| Advice.ReplyText | src/lib/advice.ts:53 | the first non-empty of reply, message and advice, else "" |
| Advice.Classify | src/lib/advice.ts:41-56 | transport errors and non-2xx statuses throw (status before paywall); a 2xx body with truthy paywall is returned as is; otherwise a blank reply throws "Empty reply from backend" and a non-blank one is answered with that untrimmed reply and the body's usage, strategy and replies |
| Advice.StatusCheckedBeforePaywall | src/lib/advice.ts:43-51 | a non-2xx status throws even when the body asks for the paywall |
| Advice.BlankReplyHidesMessage | src/lib/advice.ts:53-54 | a whitespace-only reply hides a usable message and the call throws "Empty reply from backend" |
| Advice.UnparseableSuccessIsEmptyReply | src/lib/advice.ts:41-54 | a 2xx body that is not JSON throws "Empty reply from backend" |
| Checkout.SessionDoc | src/lib/checkout.ts:7 | the posted object has the sessionId key exactly when the id is defined, and then it holds the id |
| Checkout.CheckoutRequest | src/lib/checkout.ts:4-8 | POST with credentials to origin + "/api/billing/create-checkout-session" with `{sessionId}` |
| Checkout.CheckoutResult | src/lib/checkout.ts:10-18 | success exactly for a 2xx status with a non-empty url, which is returned as is; a failed status throws `data.error` or "Checkout creation failed"; a missing url throws "No checkout url returned"; an unparseable body reads as `{}` |
| Checkout.ErrorStatusIgnoresUrl | src/lib/checkout.ts:12-15 | a failed status fails even when a url is present |
| Entitlements.FromJsonToJson | src/lib/entitlements.ts:1-9 | reading a record's JSON back gives the record, so each fallback document is a well-formed `Entitlements` |
| Entitlements.PathFor | src/lib/entitlements.ts:15-16 | "/api/me/entitlements", with "?sessionId=" and the encoded id appended only for a non-empty id |
| Entitlements.EntitlementsRequest | src/lib/entitlements.ts:15-18 | a GET with credentials to origin + "/api" + `PathFor(sessionId)`, so the URL starts with origin + "/api/api/me/entitlements" (the prefix is doubled) |
| Entitlements.FetchEntitlements | src/lib/entitlements.ts:13-30 | a transport failure yields the network fallback (ok, plan "free"); an empty body yields `{}`; a parsed body is returned unvalidated; an unparseable one yields the parse fallback (not ok, plan null) |
| Entitlements.EmptyBodyIsNotAnEntitlements | src/lib/entitlements.ts:21-22 | the `{}` handed back for an empty body does not read as an `Entitlements` record |
| Entitlements.StatusIsIgnored | src/lib/entitlements.ts:18-22 | the HTTP status never changes the result |
| Entitlements.FallbacksShareLimits | src/lib/entitlements.ts:24-28 | the two fallbacks differ only in ok and plan; both give a limit of 3 with 3 remaining and 0 used, and neither is premium |
| PillTabs.JsRem | src/components/ui/PillTabs.tsx:21 | JavaScript `%` truncates: the mathematical remainder for a non-negative dividend; for a negative dividend `-((-a) mod n)`, which lies in (-n, 0] |
| PillTabs.KeyTarget | src/components/ui/PillTabs.tsx:20-27 | only the two arrow keys move; ArrowRight goes to idx+1 and wraps from the last tab to 0; ArrowLeft goes to idx-1 and wraps from 0 to the last; the target is always in range |
| PillTabs.HandleKey | src/components/ui/PillTabs.tsx:18-31 | `onChange` receives the value of that neighbouring tab, and nothing for any other key |
| PillTabs.ArrowsAreInverse | src/components/ui/PillTabs.tsx:21-25 | Left undoes Right and Right undoes Left |
| PillTabs.RightsAdvanceModulo | src/components/ui/PillTabs.tsx:21 | k presses of ArrowRight from idx land on (idx + k) mod n |
| PillTabs.FullCycleReturns | src/components/ui/PillTabs.tsx:21 | n presses of ArrowRight return to the starting tab |
| PillTabs.Click | src/components/ui/PillTabs.tsx:53 | a click reports the clicked tab's value |
| PillTabs.ClickSelectsOnlyThatTab | src/components/ui/PillTabs.tsx:36-53 | a tab is highlighted when its value equals the current one (`Selected`); with distinct values, once the clicked value is adopted exactly the clicked tab is highlighted |
| Composer.ToneOptions | src/components/ui/Composer.tsx:67-81 | premium users are offered Calm, Confident, Flirty, Direct, Funny and Serious; others get no selector |
| Composer.EnterKey | src/components/ui/Composer.tsx:94-99 | Enter without Shift sends exactly when the trimmed input is non-empty, and it sends the trimmed input |
| Composer.SendClick | src/components/ui/Composer.tsx:159-166 | Send hands over nothing exactly while loading (the button is disabled then, Button.tsx:21); otherwise it hands over the trimmed input, which is "" exactly when the input is all whitespace |
| Composer.QuickAnalyzeClick | src/components/ui/Composer.tsx:153-154 | Quick Analyze hands over nothing exactly while loading, and otherwise what Send would |
| Composer.MimeMatchesExactly | src/components/ui/Composer.tsx:125 | the anchored pattern (`MimeMatches`) accepts exactly image/png, image/jpeg and image/webp |
| Composer.CheckFile | src/components/ui/Composer.tsx:122-127 | no file: nothing; a wrong type is rejected before the size is looked at; over 8 MiB is rejected; otherwise accepted and forwarded exactly when a handler exists |
| Composer.ExactlyEightMebibytesAccepted | src/components/ui/Composer.tsx:126 | 8388608 bytes are accepted and 8388609 are rejected |
| Page.ContextWindow | src/components/PremiumDatingAdvicePage.tsx:106-109 | at most 12 turns, namely the last min(12, n) entries in order, user as "me" and assistant as "them" |
| Page.ContextWindowSlides | src/components/PremiumDatingAdvicePage.tsx:106-109 | appending an entry adds its turn at the end and drops the oldest once 12 are held |
| Page.Begin | src/components/PremiumDatingAdvicePage.tsx:97-119 | blank text or a request in flight changes nothing; otherwise the trimmed text is appended as a user entry, the input is cleared, loading is set, and the request (`RequestFor`) carries the trimmed text, the window of the transcript before the append, the session id, and the page's mode for `pushUser` or "strategy" for `pushStrategy` |
| Page.QuickAnalyzeIsAskInStrategyMode | src/components/PremiumDatingAdvicePage.tsx:154-176 | `pushStrategy` changes the state as `pushUser` does and posts what `pushUser` would post in strategy mode |
| Page.TonePremiumOnly | src/components/PremiumDatingAdvicePage.tsx:114 | a submission that passes the guard sends a tone: the selected one for premium users and "Neutral" otherwise, so an offered tone stays among the offered tones or "Neutral" |
| Page.Pick | src/components/PremiumDatingAdvicePage.tsx:93 | the first truthy of confident[0], playful[0] and sweet[0], else "" |
| Page.FormatAdviceToText | src/components/PremiumDatingAdvicePage.tsx:84-95 | the message unchanged when its trim is non-empty, else the trimmed headline/why/pick text |
| Page.AssistantText | src/components/PremiumDatingAdvicePage.tsx:134-141 | the text appended for an answer is the formatted advice when that is non-empty, else the fixed "returned empty" text; it is never empty |
| Page.AnswersShownVerbatim | src/components/PremiumDatingAdvicePage.tsx:86-87 | every answer `fetchAdvice` produces is shown as its untrimmed reply, so the "returned empty" text never appears |
| Page.Complete | src/components/PremiumDatingAdvicePage.tsx:121-151 | loading always ends; a paywall opens the modal and keeps transcript and usage; an error appends "Error: " + message; an answer appends one assistant entry and adopts the usage snapshot only when present |
| Page.Boot | src/components/PremiumDatingAdvicePage.tsx:61-82 | the transcript becomes exactly one assistant greeting, which is the glitch text unless both calls succeed with ok and a non-blank reply (`GreetingText`, the trimmed string reply, line 72); usage is adopted only on success; loading, the modal, the input, tone, mode and session id are kept |
| Page.BootIgnoresStatus | src/components/PremiumDatingAdvicePage.tsx:66-71 | the statuses and the token reply's body never matter, only the init body |
| Page.GreetingIsTrimmed | src/components/PremiumDatingAdvicePage.tsx:72-73 | the greeting is trimmed and non-empty |
| Page.QuotaLabel | src/components/PremiumDatingAdvicePage.tsx:359-363 | "Premium: unlimited replies", or "Replies left: â€”" for no snapshot, or "<n> replies left today" |
| Page.QuotaLabelFaithful | src/components/PremiumDatingAdvicePage.tsx:362 | for a free user, different snapshots never show the same label |
| Page.Part | src/components/PremiumDatingAdvicePage.tsx:235-241 | one labelled line exactly when the field is non-empty |
| Page.Shown | src/components/PremiumDatingAdvicePage.tsx:234-241 | keeps, in order, the labelled lines whose condition holds, so never more lines than candidates |
| Page.AnalysisParts | src/components/PremiumDatingAdvicePage.tsx:234-241 | the lines are `Shown` of the seven candidates in source order (`AnalysisCandidates`: each field's truthiness with its labelled line, the alternates only for a non-empty list); at most seven lines, "Summary" first when present, none when every field is empty |
| Page.ScreenshotText | src/components/PremiumDatingAdvicePage.tsx:230-245 | a thrown error gives "Error: " + its message (or name); a body that is null or not ok gives "Error: " + error or "Unknown"; otherwise the parts joined by blank lines |
| Page.UploadScreenshot | src/components/PremiumDatingAdvicePage.tsx:221-250 | exactly two entries are appended, "Uploaded screenshot" by the user, then the analysis text; loading and usage are untouched |
| Page.EmptyAnalysisShowsNothing | src/components/PremiumDatingAdvicePage.tsx:234-242 | an ok analysis with every field empty appends an empty assistant text |
| Page.UpgradeOutcome | src/components/PremiumDatingAdvicePage.tsx:208-219 | the checkout tab opens exactly when `createCheckoutSession` returns a URL, which is opened; otherwise the fixed alert |
| Page.Upgrade | src/components/PremiumDatingAdvicePage.tsx:466-478 | the modal closes whatever the outcome, and the transcript, loading and usage are untouched |
| Conversation.ModeOf | src/components/PremiumDatingAdvicePage.tsx:341 | a recognised tab value names the mode whose value it is |
| Conversation.ModeTabsRoundTrip | src/components/ui/Composer.tsx:58-65 | every mode has a tab, and the tab's value maps back to the mode |
| Conversation.Handed | src/components/PremiumDatingAdvicePage.tsx:339-352 | each control hands over the trimmed input; only Quick Analyze reaches `pushStrategy`; Send and Quick Analyze hand something exactly when the page is not loading; Enter hands something exactly without Shift and with a non-blank input |
| Conversation.StartInv | src/components/PremiumDatingAdvicePage.tsx:20-33 | the initial page satisfies the invariant |
| Conversation.PressPreservesInv | src/components/PremiumDatingAdvicePage.tsx:97-103 | a submission keeps "request in flight exactly when loading", unique ids, and an offered tone |
| Conversation.SettlePreservesInv | src/components/PremiumDatingAdvicePage.tsx:121-151 | settling a request keeps the invariant |
| Conversation.StepPreservesInv | src/components/PremiumDatingAdvicePage.tsx:97-151 | every event, dispatched by `Step` as the composer wiring (lines 339-352) routes it, keeps the invariant |
| Conversation.RunPreservesInv | src/components/PremiumDatingAdvicePage.tsx:97-151 | any sequence of events keeps the invariant |
| Conversation.SentToneIsOffered | src/components/PremiumDatingAdvicePage.tsx:114 | whatever happens, the request in flight carries an offered tone or "Neutral" |
| Conversation.BusyIgnoresSubmissions | src/components/PremiumDatingAdvicePage.tsx:97-99 | while loading, no control changes anything |
| Conversation.TranscriptOnlyGrows | src/components/PremiumDatingAdvicePage.tsx:101-148 | every event except the bootstrap keeps the transcript as a prefix |
| Conversation.RoundSends | src/components/PremiumDatingAdvicePage.tsx:97-119 | typing and pressing Send on an idle page sends the trimmed text |
| Conversation.RoundAppends | src/components/PremiumDatingAdvicePage.tsx:97-151 | a full round appends the trimmed user entry and then, unless paywalled, one assistant entry; a paywall opens the modal; loading ends false |
| Conversation.ExchangeAppends | src/components/PremiumDatingAdvicePage.tsx:97-151 | the same, for the round's state change written as one expression |
| Conversation.RoundAlternates | src/components/PremiumDatingAdvicePage.tsx:101-143 | a round that is not paywalled adds one user entry and one assistant entry |
| Conversation.RoundsAlternate | src/components/PremiumDatingAdvicePage.tsx:97-151 | k rounds without a paywall grow the transcript by 2k entries: user and assistant alternate, and the user entries are the trimmed texts in order |

## Left out

- Rendering is left out, because it holds no stateable logic. This covers JSX, CSS class composition, scrolling and the textarea auto-resize, plus the presentational components Landing, MaintenanceOverlay, UpgradeModal, Button, ChatThread and main.
- The rotating composer placeholder is left out (a timer).
- The 60-second `URL.revokeObjectURL` in the upload handler is left out (a timer).
- The object URL attached to the uploaded entry is left out (a browser resource).
- The `cancelled` flag of the mount effect is left out. The model applies the bootstrap as one event and does not model unmounting.
- React's deferred state updates are read sequentially. Each handler sees the state before its step, as the closures do.
- `crypto.randomUUID` is replaced by the `nextId` counter. Uniqueness of ids is proved instead of drawn at random.
- `fetch`, `res.json()` and `res.text()` are inputs, not calls: a thrown error, or a status with a parsed body.
- `encodeURIComponent` is an uninterpreted parameter `enc`.
- `import.meta.env` is the parameter `Env`.
- `window.open` and `alert` are the returned effect `Page.UpgradeEffect`. `console.error` is left out (it does nothing observable).
- The `uploading` flag is left out. It is set and cleared (lines 225, 247) but never read.
- The `checkoutLoading` flag is left out. It disables the header Upgrade button (line 274) and the modal's "Upgrade & Checkout" button (line 479); the model settles checkout as one event, so `Conversation` never sees it set.
- Setting `showInsights` is left out. The insights panel is static text.
- The suggested-reply buttons of the insights panel are left out. They call `pushUser` with a fixed text, which `Page.Begin` already models.
- The page does not wire the composer's `onUpload`, so no event in `Conversation` reaches `Page.UploadScreenshot`. It is modelled on its own.
- InitToken.tsx is not part of this model: a fire-and-forget call whose errors are swallowed.
- vite.config.ts is not part of this model: build and proxy configuration.
- `String()` coercion of arbitrary values is left out. Text fields of bodies are strings or absent, and flags are JSON values judged by truthiness.
- JSON numbers are modelled as integers only.
- Js.IntToString: plain decimal digits for every integer, while JavaScript's `${n}` switches to exponent form from 1e21 on (a count that large would read "1e+21 replies left today").
- Advice.Classify: in the answer, `insights` and `datePlan` are passed through but not stated in the contract. The contract names the message, usage, strategy and replies.
- Entitlements.FetchEntitlements: the contract describes each fallback through `FromJson` rather than as a literal document. `FromJsonToJson` ties the two together.
- Js.Join: its contract states the first and last parts and a length bound, not the position of every separator. It is used only to build the screenshot text, where `Page.ScreenshotText` states the result in terms of it.
- The `null`/`undefined` distinction of `data?.usage?.remaining ?? null` is one `None`.
- Api.WithCredentials: an absent `credentials` key and an explicit `credentials: undefined` are both `None`. Under `{ credentials: 'include', ...opts }` an explicit `undefined` would win and the request would carry no credentials. No caller passes one, so the model completes both with "include".
- Advice.WireFields: an absent value is one `None`, while `JSON.stringify` keeps a key whose value is `null` and drops one whose value is `undefined`. The page never passes `null` for message, mode, sessionId or tone, so every `None` here is an `undefined` and the key is dropped.

=== FILE: advice.dfy ===
/**
 * The advice request adapter (src/lib/advice.ts, `fetchAdvice`): it turns a
 * loosely-typed UI payload into the JSON the chat endpoint accepts, chooses
 * the endpoint URL, and classifies the endpoint's reply as a paywall, an
 * answer, or a thrown error.
 */
module Advice {
  import opened Wrappers
  import opened Js
  import opened Api

  /** Who said a line of the conversation context: the user ("me") or the other side ("them"). */
  datatype Speaker = Me | Them

  /** One `{from, text}` entry of the conversation context. */
  datatype Turn = Turn(from: Speaker, text: string)

  /** The argument of `fetchAdvice`; every field may be missing. */
  datatype Payload = Payload(
    situation: Option<string>,
    goal: Option<string>,
    tone: Option<string>,
    conversation: Option<seq<Turn>>,
    message: Option<string>,
    text: Option<string>,
    userMessage: Option<string>,
    input: Option<string>,
    mode: Option<string>,
    tab: Option<string>,
    sessionId: Option<string>)

  /** The mode sent on the wire: `mode ?? tab`, with "dating_advice" renamed to "dating". */
  function WireMode(p: Payload): (m: Option<string>)
    ensures m != Some("dating_advice")
    ensures m.None? <==> p.mode.None? && p.tab.None?
    ensures p.mode.Some? && p.mode != Some("dating_advice") ==> m == p.mode
    ensures p.mode.None? && p.tab != Some("dating_advice") ==> m == p.tab
    ensures Nullish(p.mode, p.tab) == Some("dating_advice") ==> m == Some("dating")
  {
    var raw := Nullish(p.mode, p.tab);
    if raw == Some("dating_advice") then Some("dating") else raw
  }

  /** The user text sent on the wire: `message ?? text ?? userMessage ?? input ?? ''`. */
  function MessageText(p: Payload): (t: string)
    ensures p.message.Some? ==> t == p.message.value
    ensures p.message.None? && p.text.Some? ==> t == p.text.value
    ensures p.message.None? && p.text.None? && p.userMessage.Some? ==> t == p.userMessage.value
    ensures p.message.None? && p.text.None? && p.userMessage.None? ==> t == p.input.GetOr("")
  {
    Nullish(p.message, Nullish(p.text, Nullish(p.userMessage, p.input))).GetOr("")
  }

  /** A field of the wire body, left out entirely when its value is `undefined` (as `JSON.stringify` does). */
  function OptionalField(key: string, v: Option<string>): (fs: seq<(string, Json)>)
    ensures v.None? ==> fs == []
    ensures v.Some? ==> fs == [(key, JStr(v.value))]
  {
    if v.Some? then [(key, JStr(v.value))] else []
  }

  /** The fields of the JSON document `fetchAdvice` posts: `{ message, mode, sessionId, tone }`. */
  function WireFields(p: Payload): (fs: seq<(string, Json)>)
    ensures |fs| > 0 && fs[0] == ("message", JStr(MessageText(p)))
    ensures forall i | 0 <= i < |fs| :: fs[i].0 in ["message", "mode", "sessionId", "tone"]
    ensures forall i, j | 0 <= i < j < |fs| :: fs[i].0 != fs[j].0
  {
    [("message", JStr(MessageText(p)))]
      + OptionalField("mode", WireMode(p))
      + OptionalField("sessionId", p.sessionId)
      + OptionalField("tone", p.tone)
  }

  /** The JSON document `fetchAdvice` posts. */
  function WireBody(p: Payload): (doc: Json)
    ensures doc.JObj? && doc.fields == WireFields(p)
  {
    JObj(WireFields(p))
  }

  /** Reading the posted document back gives the payload's text, normalized mode, session id and tone. */
  lemma WireBodyRoundTrip(p: Payload)
    ensures Lookup(WireBody(p).fields, "message") == Some(JStr(MessageText(p)))
    ensures Lookup(WireBody(p).fields, "mode") == (if WireMode(p).Some? then Some(JStr(WireMode(p).value)) else None)
    ensures Lookup(WireBody(p).fields, "sessionId") == (if p.sessionId.Some? then Some(JStr(p.sessionId.value)) else None)
    ensures Lookup(WireBody(p).fields, "tone") == (if p.tone.Some? then Some(JStr(p.tone.value)) else None)
  {
    var head := [("message", JStr(MessageText(p)))];
    var mode := OptionalField("mode", WireMode(p));
    var session := OptionalField("sessionId", p.sessionId);
    var tone := OptionalField("tone", p.tone);
    assert WireFields(p) == head + mode + session + tone;
    LookupFourParts(head, mode, session, tone, "message");
    LookupFourParts(head, mode, session, tone, "mode");
    LookupFourParts(head, mode, session, tone, "sessionId");
    LookupFourParts(head, mode, session, tone, "tone");
  }

  /** A key of four concatenated field lists is found in the first list that has it. */
  lemma LookupFourParts(a: seq<(string, Json)>, b: seq<(string, Json)>, c: seq<(string, Json)>, d: seq<(string, Json)>, key: string)
    ensures Lookup(a + b + c + d, key) == Nullish(Lookup(a, key), Nullish(Lookup(b, key), Nullish(Lookup(c, key), Lookup(d, key))))
  {
    LookupConcat(a, b, key);
    LookupConcat(a + b, c, key);
    LookupConcat(a + b + c, d, key);
  }

  /** The conversation context, situation and goal never reach the wire. */
  lemma WireBodyDropsContext(p: Payload, conversation: Option<seq<Turn>>, situation: Option<string>, goal: Option<string>)
    ensures WireBody(p.(conversation := conversation, situation := situation, goal := goal)) == WireBody(p)
  {
  }

  /** The only keys of the wire body are `message`, `mode`, `sessionId` and `tone`. */
  lemma WireBodyHasNoOtherKeys(p: Payload, key: string)
    requires key !in ["message", "mode", "sessionId", "tone"]
    ensures Lookup(WireBody(p).fields, key).None?
  {
    var fs := WireBody(p).fields;
    forall i | 0 <= i < |fs| ensures fs[i].0 != key {
      assert fs[i].0 in ["message", "mode", "sessionId", "tone"];
    }
  }

  /** The base the adapter posts to: `(VITE_API_BASE || NEXT_PUBLIC_API_BASE || '').trim()`. */
  function ChatBase(env: Env): string {
    Trim(Or(env.apiBase, env.publicApiBase).GetOr(""))
  }

  /** The chat endpoint URL. */
  function ChatUrl(env: Env): (url: string)
    ensures ChatBase(env) == "" ==> url == "/api/chat"
    ensures ChatBase(env) != "" ==> url == StripTrailingSlash(ChatBase(env)) + "/api/chat"
    ensures |url| >= 9 && url[|url| - 9..] == "/api/chat"
  {
    var base := ChatBase(env);
    if base != "" then StripTrailingSlash(base) + "/api/chat" else "/api/chat"
  }

  /**
   * The chat URL does not go through `apiUrl`: neither the development flag
   * nor the backend override used everywhere else has any effect on it.
   */
  lemma ChatUrlIgnoresApiClientConfig(env: Env, dev: bool, backend: Option<string>)
    ensures ChatUrl(env.(dev := dev, backendBaseUrl := backend)) == ChatUrl(env)
  {
  }

  /** A whitespace-only VITE_API_BASE is truthy, so it hides NEXT_PUBLIC_API_BASE and then trims to nothing. */
  lemma BlankApiBaseGivesRelativeUrl(env: Env)
    requires env.apiBase.Some? && env.apiBase.value != "" && AllSpace(env.apiBase.value)
    ensures ChatUrl(env) == "/api/chat"
  {
    TrimEmptyIff(env.apiBase.value);
  }

  /** The request `fetchAdvice` issues. */
  function AdviceRequest(p: Payload, env: Env): (req: Request)
    ensures req.url == ChatUrl(env)
    ensures req.init.verb == Some("POST") && req.init.credentials == Some("include")
    ensures req.init.body == Some(WireBody(p))
  {
    Request(ChatUrl(env), RequestInit(Some("POST"), Some([("Content-Type", "application/json")]), Some(WireBody(p)), Some("include")))
  }

  // ---------------------------------------------------------------- replies

  /** The `strategy` object of an advice reply. */
  datatype Strategy = Strategy(headline: Option<string>, why: Option<string>, doList: Option<seq<string>>, dontList: Option<seq<string>>)

  /** The usage snapshot a reply may carry. */
  datatype Usage = Usage(isPremium: Option<Json>, remaining: Option<int>)

  /** The parsed body of a chat endpoint reply; only the fields the adapter reads. */
  datatype ChatBody = ChatBody(
    error: Option<string>,
    message: Option<string>,
    paywall: Option<Json>,
    reply: Option<string>,
    advice: Option<string>,
    insights: Option<Json>,
    strategy: Option<Strategy>,
    replies: Option<map<string, seq<string>>>,
    datePlan: Option<Json>,
    usage: Option<Usage>)

  /** The normalized answer `{ message, insights, strategy, replies, datePlan, usage }`. */
  datatype Answer = Answer(
    message: string,
    insights: Option<Json>,
    strategy: Option<Strategy>,
    replies: Option<map<string, seq<string>>>,
    datePlan: Option<Json>,
    usage: Option<Usage>)

  /** What `fetchAdvice` settles with: the raw paywall body, a normalized answer, or a thrown error. */
  datatype Outcome = Paywall(body: ChatBody) | Answered(answer: Answer) | Thrown(message: string)

  const EmptyReply := "Empty reply from backend"

  /** The message of the error thrown for a non-2xx status: `data.error`, else `data.message`, else a generic one. */
  function FailureMessage(body: Option<ChatBody>, status: int): (msg: string)
    ensures msg != ""
    ensures body.Some? && TruthyStr(body.value.error) ==> msg == body.value.error.value
    ensures body.Some? && !TruthyStr(body.value.error) && TruthyStr(body.value.message) ==> msg == body.value.message.value
    ensures (body.None? || (!TruthyStr(body.value.error) && !TruthyStr(body.value.message)))
      ==> msg == "Request failed (" + IntToString(status) + ")"
  {
    var generic := "Request failed (" + IntToString(status) + ")";
    match body
    case None => generic
    case Some(b) => Or(Or(b.error, b.message), Some(generic)).value
  }

  /** The reply text: the first non-empty of `reply`, `message`, `advice`, or "". */
  function ReplyText(body: Option<ChatBody>): (t: string)
    ensures body.None? ==> t == ""
    ensures body.Some? && TruthyStr(body.value.reply) ==> t == body.value.reply.value
    ensures body.Some? && !TruthyStr(body.value.reply) && TruthyStr(body.value.message) ==> t == body.value.message.value
    ensures body.Some? && !TruthyStr(body.value.reply) && !TruthyStr(body.value.message) ==> t == body.value.advice.GetOr("")
  {
    match body
    case None => ""
    case Some(b) => Or(b.reply, Or(b.message, b.advice)).GetOr("")
  }

  /** How `fetchAdvice` settles, given what the network produced. */
  function Classify(r: HttpReply<ChatBody>): (o: Outcome)
    ensures r.TransportError? ==> o == Thrown(r.reason)
    ensures r.Response? && !StatusOk(r.status) ==> o == Thrown(FailureMessage(r.body, r.status))
    ensures o.Paywall? <==> r.Response? && StatusOk(r.status) && r.body.Some? && TruthyOpt(r.body.value.paywall)
    ensures o.Paywall? ==> o.body == r.body.value
    ensures o.Answered? <==> r.Response? && StatusOk(r.status) && !(r.body.Some? && TruthyOpt(r.body.value.paywall))
                             && Trim(ReplyText(r.body)) != ""
    ensures o.Answered? ==> o.answer.message == ReplyText(r.body) && Trim(o.answer.message) != ""
    ensures o.Answered? ==> o.answer.usage == r.body.value.usage && o.answer.strategy == r.body.value.strategy
                            && o.answer.replies == r.body.value.replies
    ensures (r.Response? && StatusOk(r.status) && !(r.body.Some? && TruthyOpt(r.body.value.paywall))
             && Trim(ReplyText(r.body)) == "") ==> o == Thrown(EmptyReply)
  {
    match r
    case TransportError(reason) => Thrown(reason)
    case Response(status, body) =>
      if !StatusOk(status) then Thrown(FailureMessage(body, status))
      else if body.Some? && TruthyOpt(body.value.paywall) then Paywall(body.value)
      else
        var reply := ReplyText(body);
        if reply == "" || Trim(reply) == "" then Thrown(EmptyReply)
        else
          var b := body.value;
          Answered(Answer(reply, b.insights, b.strategy, b.replies, b.datePlan, b.usage))
  }

  /** A non-2xx status is an error even when the body also asks for the paywall. */
  lemma StatusCheckedBeforePaywall(status: int, body: ChatBody)
    requires !StatusOk(status) && TruthyOpt(body.paywall)
    ensures Classify(Response(status, Some(body))).Thrown?
  {
  }

  /** A whitespace-only `reply` hides a usable `message`: `||` only skips the empty string. */
  lemma BlankReplyHidesMessage(status: int, body: ChatBody)
    requires StatusOk(status) && !TruthyOpt(body.paywall)
    requires body.reply.Some? && body.reply.value != "" && AllSpace(body.reply.value)
    ensures Classify(Response(status, Some(body))) == Thrown(EmptyReply)
  {
    TrimEmptyIff(body.reply.value);
  }

  /** An unparseable 2xx body is reported as an empty reply. */
  lemma UnparseableSuccessIsEmptyReply(status: int)
    requires StatusOk(status)
    ensures Classify(Response(status, None)) == Thrown(EmptyReply)
  {
  }
}

=== FILE: api.dfy ===
/**
 * The API client (src/lib/api.ts): how a logical path becomes a request URL,
 * and how the fetch options are completed with cookie credentials.
 */
module Api {
  import opened Wrappers
  import opened Js

  /** The build-time settings read from `import.meta.env`. */
  datatype Env = Env(
    dev: bool,                      // DEV
    backendBaseUrl: Option<string>, // VITE_BACKEND_BASE_URL, used by apiUrl
    apiBase: Option<string>,        // VITE_API_BASE, used by the advice adapter
    publicApiBase: Option<string>)  // NEXT_PUBLIC_API_BASE, used by the advice adapter

  /** The production origin used when no backend override is configured. */
  const DefaultBackend := "https://api.sparkdd.live"

  /** The single prefix every API path is mounted under. */
  const Prefix := "/api"

  /** The origin `API`: the configured override, or the production origin when it is unset or empty. */
  function Backend(env: Env): (base: string)
    ensures base != ""
    ensures TruthyStr(env.backendBaseUrl) ==> base == env.backendBaseUrl.value
    ensures !TruthyStr(env.backendBaseUrl) ==> base == DefaultBackend
  {
    Or(env.backendBaseUrl, Some(DefaultBackend)).value
  }

  /** The path with a "/" put in front when it does not already start with one. */
  function WithLeadingSlash(path: string): (p: string)
    ensures |p| > 0 && p[0] == '/'
    ensures p == path <==> (|path| > 0 && path[0] == '/')
    ensures p != path ==> p == "/" + path
  {
    if |path| > 0 && path[0] == '/' then path else "/" + path
  }

  /** What comes before "/api": nothing in development, else the backend origin minus one trailing "/". */
  function Origin(env: Env): string {
    if env.dev then "" else StripTrailingSlash(Backend(env))
  }

  /** `apiUrl(path)` */
  function ApiUrl(path: string, env: Env): (url: string)
    ensures url == Origin(env) + Prefix + WithLeadingSlash(path)
    ensures env.dev ==> "/api/" <= url
    ensures |url| >= |path| && url[|url| - |path|..] == path
  {
    var p := WithLeadingSlash(path);
    if env.dev then Prefix + p
    else StripTrailingSlash(Backend(env)) + Prefix + p
  }

  /** A path without a leading "/" resolves exactly as the same path with one. */
  lemma ApiUrlSlashOptional(path: string, env: Env)
    requires path == [] || path[0] != '/'
    ensures ApiUrl(path, env) == ApiUrl("/" + path, env)
  {
  }

  /** Distinct "/"-led paths resolve to distinct URLs under the same configuration. */
  lemma ApiUrlInjective(p1: string, p2: string, env: Env)
    requires |p1| > 0 && p1[0] == '/' && |p2| > 0 && p2[0] == '/'
    requires ApiUrl(p1, env) == ApiUrl(p2, env)
    ensures p1 == p2
  {
    var o := Origin(env) + Prefix;
    assert ApiUrl(p1, env) == o + p1;
    assert ApiUrl(p2, env) == o + p2;
    assert p1 == (o + p1)[|o|..];
    assert p2 == (o + p2)[|o|..];
  }

  /** The prefix is added unconditionally, so a path that already carries it gets it twice. */
  lemma ApiUrlDoublePrefix(path: string, env: Env)
    requires "/api/" <= path
    ensures Origin(env) + "/api/api/" <= ApiUrl(path, env)
  {
    assert ApiUrl(path, env) == Origin(env) + "/api" + path;
  }

  // ---------------------------------------------------------------- fetch options

  /** The subset of `RequestInit` this front end uses; `body` is the document handed to `JSON.stringify`. */
  datatype RequestInit = RequestInit(
    verb: Option<string>,         // the `method` option
    headers: Option<seq<(string, string)>>,
    body: Option<Json>,
    credentials: Option<string>)

  /** A request as it reaches `fetch`. */
  datatype Request = Request(url: string, init: RequestInit)

  /** `{ credentials: 'include', ...opts }` */
  function WithCredentials(opts: Option<RequestInit>): (init: RequestInit)
    ensures init.credentials.Some?
    ensures opts.Some? && opts.value.credentials.Some? ==> init.credentials == opts.value.credentials
    ensures (opts.None? || opts.value.credentials.None?) ==> init.credentials == Some("include")
    ensures opts.Some? ==> init.(credentials := opts.value.credentials) == opts.value
    ensures opts.None? ==> init == RequestInit(None, None, None, Some("include"))
  {
    match opts
    case None => RequestInit(None, None, None, Some("include"))
    case Some(o) => if o.credentials.Some? then o else o.(credentials := Some("include"))
  }

  /** Completing the options twice changes nothing. */
  lemma WithCredentialsIdempotent(opts: Option<RequestInit>)
    ensures WithCredentials(Some(WithCredentials(opts))) == WithCredentials(opts)
  {
  }

  /** `apiFetch(path, opts)`: the request it hands to `fetch`. */
  function ApiFetch(path: string, opts: Option<RequestInit>, env: Env): (req: Request)
    ensures req.url == ApiUrl(path, env)
    ensures req.init == WithCredentials(opts)
    ensures req.init.credentials.Some?
  {
    Request(ApiUrl(path, env), WithCredentials(opts))
  }

  // ---------------------------------------------------------------- replies

  /**
   * What a `fetch` call followed by `res.json()` yields: either the call
   * threw (a transport failure, with the error's message), or a response
   * with its status and the parsed body, `None` when the body is not JSON.
   */
  datatype HttpReply<B> = TransportError(reason: string) | Response(status: int, body: Option<B>)

  /** `res.ok` */
  predicate StatusOk(status: int) {
    200 <= status <= 299
  }
}

=== FILE: checkout.dfy ===
/**
 * The checkout adapter (src/lib/checkout.ts, `createCheckoutSession`): it asks
 * the billing endpoint for a payment-session URL and either returns that URL
 * or throws.
 */
module Checkout {
  import opened Wrappers
  import opened Js
  import opened Api

  const CheckoutPath := "/billing/create-checkout-session"
  const CreationFailed := "Checkout creation failed"
  const NoUrl := "No checkout url returned"

  /** The parsed body of the billing endpoint's reply; only the fields the adapter reads. */
  datatype CheckoutBody = CheckoutBody(error: Option<string>, url: Option<string>)

  /** The document `JSON.stringify({ sessionId })` serializes: the key is dropped when the id is `undefined`. */
  function SessionDoc(sessionId: Option<string>): (doc: Json)
    ensures doc.JObj?
    ensures Lookup(doc.fields, "sessionId") == (if sessionId.Some? then Some(JStr(sessionId.value)) else None)
    ensures |doc.fields| <= 1
  {
    match sessionId
    case Some(id) => JObj([("sessionId", JStr(id))])
    case None => JObj([])
  }

  /** The request `createCheckoutSession` issues through `apiFetch`. */
  function CheckoutRequest(sessionId: Option<string>, env: Env): (req: Request)
    ensures req.url == Origin(env) + Prefix + CheckoutPath
    ensures req.init.verb == Some("POST")
    ensures req.init.credentials == Some("include")
    ensures req.init.body == Some(SessionDoc(sessionId))
  {
    assert WithLeadingSlash(CheckoutPath) == CheckoutPath;
    ApiFetch(CheckoutPath, Some(RequestInit(Some("POST"), Some([("Content-Type", "application/json")]), Some(SessionDoc(sessionId)), None)), env)
  }

  /** How `createCheckoutSession` settles: the checkout URL, or the message of the error it throws. */
  function CheckoutResult(r: HttpReply<CheckoutBody>): (res: Result<string, string>)
    ensures res.Success? <==> r.Response? && StatusOk(r.status) && r.body.Some? && TruthyStr(r.body.value.url)
    ensures res.Success? ==> res.value == r.body.value.url.value && res.value != ""
    ensures r.TransportError? ==> res == Failure(r.reason)
    ensures r.Response? && !StatusOk(r.status) && r.body.Some? && TruthyStr(r.body.value.error)
            ==> res == Failure(r.body.value.error.value)
    ensures r.Response? && !StatusOk(r.status) && !(r.body.Some? && TruthyStr(r.body.value.error))
            ==> res == Failure(CreationFailed)
    ensures r.Response? && StatusOk(r.status) && !(r.body.Some? && TruthyStr(r.body.value.url))
            ==> res == Failure(NoUrl)
  {
    match r
    case TransportError(reason) => Failure(reason)
    case Response(status, body) =>
      // an unparseable body is read as `{}`
      var data := body.GetOr(CheckoutBody(None, None));
      if !StatusOk(status) then Failure(Or(data.error, Some(CreationFailed)).value)
      else if !TruthyStr(data.url) then Failure(NoUrl)
      else Success(data.url.value)
  }

  /** A failed status wins over a URL in the body: no checkout is opened. */
  lemma ErrorStatusIgnoresUrl(status: int, body: CheckoutBody)
    requires !StatusOk(status) && TruthyStr(body.url)
    ensures CheckoutResult(Response(status, Some(body))).Failure?
  {
  }
}

=== FILE: composer.dfy ===
/**
 * The message composer (src/components/ui/Composer.tsx): which text each of
 * its controls hands to the page, the premium-only tone selector, and the
 * screenshot file check.
 */
module Composer {
  import opened Wrappers
  import opened Js
  import opened PillTabs

  /** The mode tabs, in display order. */
  const ModeOptions := [
    PillOption("dating_advice", "Dating advice"),
    PillOption("rizz", "Rizz"),
    PillOption("strategy", "Strategy")]

  /** The tones the selector offers. */
  const ToneChoices := ["Calm", "Confident", "Flirty", "Direct", "Funny", "Serious"]

  /** The tone selector is rendered only for premium users. */
  function ToneOptions(isPremium: bool): (tones: seq<string>)
    ensures isPremium ==> tones == ToneChoices
    ensures !isPremium ==> tones == []
  {
    if isPremium then ToneChoices else []
  }

  /** A key press in the text area: the text handed to `onSend`, if any. */
  function EnterKey(key: string, shift: bool, input: string): (sent: Option<string>)
    ensures sent.Some? <==> key == "Enter" && !shift && Trim(input) != ""
    ensures sent.Some? ==> sent.value == Trim(input) && Trim(sent.value) == sent.value
  {
    TrimIdempotent(input);
    if key == "Enter" && !shift && |Trim(input)| > 0 then Some(Trim(input)) else None
  }

  /**
   * The Send button: disabled while a request is in flight (the button is
   * disabled whenever its `loading` prop is set); otherwise it hands over the
   * trimmed input, even when that is empty.
   */
  function SendClick(input: string, loading: bool): (sent: Option<string>)
    ensures loading <==> sent.None?
    ensures sent.Some? ==> sent.value == Trim(input) && Trim(sent.value) == sent.value
    ensures sent.Some? ==> (sent.value == "" <==> AllSpace(input))
  {
    TrimIdempotent(input);
    TrimEmptyIff(input);
    if loading then None else Some(Trim(input))
  }

  /** The Quick Analyze button: disabled while a request is in flight, otherwise hands over the trimmed input. */
  function QuickAnalyzeClick(input: string, loading: bool): (sent: Option<string>)
    ensures loading <==> sent.None?
    ensures sent == SendClick(input, loading)
  {
    if loading then None else Some(Or(Some(Trim(input)), Some("")).value)
  }

  // ---------------------------------------------------------------- screenshot files

  /** The part of a chosen `File` the check reads. */
  datatype FileInfo = FileInfo(mime: string, size: int)

  /** What happens to a chosen file: nothing chosen, an alert, or accepted (and passed on when a handler exists). */
  datatype FileVerdict = NoFile | Rejected(alert: string) | Accepted(forwarded: bool)

  const MaxUploadBytes := 8 * 1024 * 1024
  const WrongType := "Only PNG/JPEG/WEBP allowed"
  const TooLarge := "File too large (max 8MB)"

  /** The anchored pattern `^image\/(png|jpeg|webp)$`, matched left to right. */
  predicate MimeMatches(t: string) {
    |t| >= 6 && t[..6] == "image/" && (t[6..] == "png" || t[6..] == "jpeg" || t[6..] == "webp")
  }

  /** The pattern accepts exactly three MIME types. */
  lemma MimeMatchesExactly(t: string)
    ensures MimeMatches(t) <==> t in ["image/png", "image/jpeg", "image/webp"]
  {
    if t in ["image/png", "image/jpeg", "image/webp"] {
      assert t[..6] == "image/";
    }
    if MimeMatches(t) {
      assert t == t[..6] + t[6..];
      if t[6..] == "png" { assert t == "image/png"; }
      else if t[6..] == "jpeg" { assert t == "image/jpeg"; }
      else { assert t == "image/webp"; }
    }
  }

  /** The file input's change handler. */
  function CheckFile(f: Option<FileInfo>, hasHandler: bool): (v: FileVerdict)
    ensures v.NoFile? <==> f.None?
    ensures v == Rejected(WrongType) <==> f.Some? && !MimeMatches(f.value.mime)
    ensures v == Rejected(TooLarge) <==> f.Some? && MimeMatches(f.value.mime) && f.value.size > MaxUploadBytes
    ensures v.Accepted? <==> f.Some? && MimeMatches(f.value.mime) && f.value.size <= MaxUploadBytes
    ensures v.Accepted? ==> v.forwarded == hasHandler
  {
    match f
    case None => NoFile
    case Some(file) =>
      if !MimeMatches(file.mime) then Rejected(WrongType)
      else if file.size > MaxUploadBytes then Rejected(TooLarge)
      else Accepted(hasHandler)
  }

  /** The limit is inclusive: a file of exactly 8 MiB is accepted. */
  lemma ExactlyEightMebibytesAccepted(mime: string, hasHandler: bool)
    requires MimeMatches(mime)
    ensures CheckFile(Some(FileInfo(mime, 8388608)), hasHandler) == Accepted(hasHandler)
    ensures CheckFile(Some(FileInfo(mime, 8388609)), hasHandler) == Rejected(TooLarge)
  {
  }
}

=== FILE: conversation.dfy ===
/**
 * The page as an event-driven machine: the user's actions on the composer,
 * the mode tabs and the upgrade modal, and the settling of the page's network
 * calls, each as an event applied to the page state. `pending` is the advice
 * request in flight, if any.
 */
module Conversation {
  import opened Wrappers
  import opened Js
  import Api
  import opened Advice
  import Checkout
  import PillTabs
  import Composer
  import opened Page

  /** The composer controls that submit text. */
  datatype Control = SendButton | EnterPress(shift: bool) | QuickAnalyzeButton

  datatype Event =
    | Mounted(token: Api.HttpReply<Json>, init: Api.HttpReply<InitBody>)
    | Typed(input: string)
    | Pressed(control: Control)
    | Settled(reply: Api.HttpReply<ChatBody>)
    | TabClicked(tab: int)
    | TabKeyed(focus: int, key: string)
    | ToneSelected(tone: string)
    | UpgradeClicked
    | ModalClosed
    | CheckoutSettled(checkout: Api.HttpReply<Checkout.CheckoutBody>)

  datatype Machine = Machine(page: State, pending: Option<Payload>)

  function Start(sessionId: string): Machine {
    Machine(Initial(sessionId), None)
  }

  /** The page mode a tab value stands for; the three tab values are the three modes. */
  function ModeOf(value: string): (m: Option<Mode>)
    ensures m.Some? ==> ModeValue(m.value) == value
  {
    if value == "dating_advice" then Some(DatingAdvice)
    else if value == "rizz" then Some(Rizz)
    else if value == "strategy" then Some(StrategyMode)
    else None
  }

  /** Every mode has a tab, and reading the tab's value back gives the mode. */
  lemma ModeTabsRoundTrip(m: Mode)
    ensures exists i | 0 <= i < |Composer.ModeOptions| :: Composer.ModeOptions[i].value == ModeValue(m)
    ensures ModeOf(ModeValue(m)) == Some(m)
  {
    var i := match m case DatingAdvice => 0 case Rizz => 1 case StrategyMode => 2;
    assert Composer.ModeOptions[i].value == ModeValue(m);
  }

  /** The text a control hands to the page and which handler receives it; `None` when it hands nothing. */
  function Handed(c: Control, s: State): (h: Option<(string, Kind)>)
    ensures h.Some? ==> h.value.0 == Trim(s.input) && (h.value.1 == QuickAnalyze <==> c == QuickAnalyzeButton)
    ensures c == SendButton ==> (h.Some? <==> !s.loading)
    ensures c == QuickAnalyzeButton ==> (h.Some? <==> !s.loading)
    ensures c.EnterPress? ==> (h.Some? <==> !c.shift && Trim(s.input) != "")
  {
    match c
    case SendButton =>
      var sent := Composer.SendClick(s.input, s.loading);
      if sent.Some? then Some((sent.value, Ask)) else None
    case EnterPress(shift) =>
      var sent := Composer.EnterKey("Enter", shift, s.input);
      if sent.Some? then Some((sent.value, Ask)) else None
    case QuickAnalyzeButton =>
      var sent := Composer.QuickAnalyzeClick(s.input, s.loading);
      if sent.Some? then Some((sent.value, QuickAnalyze)) else None
  }

  /** Applies one event. */
  function Step(m: Machine, e: Event): Machine {
    match e
    case Mounted(token, init) => m.(page := Boot(m.page, token, init))
    case Typed(input) => m.(page := m.page.(input := input))
    case Pressed(c) => Press(m, c)
    case Settled(reply) => Settle(m, reply)
    case TabClicked(i) =>
      if 0 <= i < |Composer.ModeOptions| then SetMode(m, PillTabs.Click(Composer.ModeOptions, i)) else m
    case TabKeyed(focus, key) =>
      if 0 <= focus < |Composer.ModeOptions| then
        var v := PillTabs.HandleKey(Composer.ModeOptions, key, focus);
        if v.Some? then SetMode(m, v.value) else m
      else m
    case ToneSelected(t) =>
      if t in Composer.ToneOptions(m.page.isPremium) then m.(page := m.page.(tone := t)) else m
    case UpgradeClicked => m.(page := m.page.(showModal := true))
    case ModalClosed => m.(page := m.page.(showModal := false))
    case CheckoutSettled(r) => m.(page := Upgrade(m.page, r).0)
  }

  /** A composer control is used: the page's handler runs on what it hands over. */
  function Press(m: Machine, c: Control): Machine {
    var h := Handed(c, m.page);
    if h.None? then m
    else
      var sub := Begin(m.page, h.value.0, h.value.1);
      if sub.request.Some? then Machine(sub.state, sub.request) else m
  }

  /** The advice call settles; a reply with no request in flight changes nothing. */
  function Settle(m: Machine, reply: Api.HttpReply<ChatBody>): Machine {
    if m.pending.None? then m else Machine(Complete(m.page, Classify(reply)), None)
  }

  function SetMode(m: Machine, value: string): Machine {
    var mode := ModeOf(value);
    if mode.Some? then m.(page := m.page.(mode := mode.value)) else m
  }

  /** Applies events in order. */
  function Run(m: Machine, es: seq<Event>): Machine
    decreases |es|
  {
    if es == [] then m else Run(Step(m, es[0]), es[1..])
  }

  lemma {:induction false} RunConcat(m: Machine, a: seq<Event>, b: seq<Event>)
    ensures Run(m, a + b) == Run(Run(m, a), b)
    decreases |a|
  {
    if a == [] {
      assert a + b == b;
    } else {
      assert (a + b)[0] == a[0];
      assert (a + b)[1..] == a[1..] + b;
      RunConcat(Step(m, a[0]), a[1..], b);
    }
  }

  // ---------------------------------------------------------------- invariant

  /** Every transcript entry has its own id, and all of them were drawn before `nextId`. */
  predicate IdsFresh(s: State) {
    && (forall i | 0 <= i < |s.messages| :: s.messages[i].id < s.nextId)
    && (forall i, j | 0 <= i < j < |s.messages| :: s.messages[i].id != s.messages[j].id)
  }

  /** The tones that can reach the wire. */
  predicate WireTone(t: string) {
    t in Composer.ToneChoices || t == "Neutral"
  }

  /**
   * What holds between events: a request is in flight exactly when the page
   * shows it is loading, ids are unique, the selected tone is one the
   * selector offers, and the request in flight carries one of the offered
   * tones or "Neutral".
   */
  predicate Inv(m: Machine) {
    && (m.pending.Some? <==> m.page.loading)
    && IdsFresh(m.page)
    && m.page.tone in Composer.ToneChoices
    && (m.pending.Some? ==> m.pending.value.tone.Some? && WireTone(m.pending.value.tone.value))
  }

  lemma StartInv(sessionId: string)
    ensures Inv(Start(sessionId))
  {
  }

  /** Appending an entry with a fresh id keeps ids fresh once `nextId` moves past it. */
  lemma AppendKeepsIdsFresh(s: State, m: Msg, t: State)
    requires IdsFresh(s) && m.id == s.nextId
    requires t.messages == s.messages + [m] && t.nextId > s.nextId
    ensures IdsFresh(t)
  {
  }

  /** An event that leaves the transcript, the id counter and the request in flight alone keeps the invariant. */
  lemma QuietStepKeepsInv(m: Machine, m': Machine)
    requires Inv(m)
    requires m'.pending == m.pending && m'.page.loading == m.page.loading
    requires m'.page.messages == m.page.messages && m'.page.nextId == m.page.nextId
    requires m'.page.tone in Composer.ToneChoices
    ensures Inv(m')
  {
  }

  lemma PressPreservesInv(m: Machine, c: Control)
    requires Inv(m)
    ensures Inv(Press(m, c))
  {
    var h := Handed(c, m.page);
    if h.None? {
      assert Press(m, c) == m;
    } else {
      var sub := Begin(m.page, h.value.0, h.value.1);
      if sub.request.Some? {
        assert Trim(h.value.0) != "" && !m.page.loading;
        BeginKeepsInv(m.page, h.value.0, h.value.1);
        assert Press(m, c) == Machine(sub.state, sub.request);
      } else {
        assert Press(m, c) == m;
      }
    }
  }

  /** A submission the page accepts keeps ids fresh and the tone, and sends a tone that can reach the wire. */
  lemma BeginKeepsInv(s: State, text: string, kind: Kind)
    requires IdsFresh(s) && s.tone in Composer.ToneChoices && Trim(text) != "" && !s.loading
    ensures var sub := Begin(s, text, kind);
            && IdsFresh(sub.state) && sub.state.tone == s.tone && sub.state.loading
            && sub.request.Some? && sub.request.value.tone.Some? && WireTone(sub.request.value.tone.value)
  {
    var sub := Begin(s, text, kind);
    AppendKeepsIdsFresh(s, UserMsg(s, text), sub.state);
  }

  lemma SettlePreservesInv(m: Machine, reply: Api.HttpReply<ChatBody>)
    requires Inv(m)
    ensures Inv(Settle(m, reply))
  {
    if m.pending.Some? {
      var o := Classify(reply);
      var t := Complete(m.page, o);
      if !o.Paywall? {
        AppendKeepsIdsFresh(m.page, Reply(m.page, o).value, t);
      }
    }
  }

  lemma StepPreservesInv(m: Machine, e: Event)
    requires Inv(m)
    ensures Inv(Step(m, e))
  {
    match e
    case Pressed(c) => PressPreservesInv(m, c);
    case Settled(reply) => SettlePreservesInv(m, reply);
    case Mounted(token, init) =>
    case _ => QuietStepKeepsInv(m, Step(m, e));
  }

  lemma {:induction false} RunPreservesInv(m: Machine, es: seq<Event>)
    requires Inv(m)
    ensures Inv(Run(m, es))
    decreases |es|
  {
    if es != [] {
      StepPreservesInv(m, es[0]);
      RunPreservesInv(Step(m, es[0]), es[1..]);
    }
  }

  /**
   * Whatever the user does and however the backend answers, only a tone the
   * selector offers, or "Neutral", is ever sent.
   */
  lemma SentToneIsOffered(sessionId: string, es: seq<Event>)
    ensures var m := Run(Start(sessionId), es);
            m.pending.Some? ==> m.pending.value.tone.Some? && WireTone(m.pending.value.tone.value)
  {
    StartInv(sessionId);
    RunPreservesInv(Start(sessionId), es);
  }

  // ---------------------------------------------------------------- one exchange at a time

  /** While a request is in flight, no control submits anything. */
  lemma BusyIgnoresSubmissions(m: Machine, c: Control)
    requires m.page.loading
    ensures Step(m, Pressed(c)) == m
  {
  }

  /** Only the bootstrap greeting replaces the transcript; every other event keeps it as a prefix. */
  lemma TranscriptOnlyGrows(m: Machine, e: Event)
    requires !e.Mounted?
    ensures m.page.messages <= Step(m, e).page.messages
  {
  }

  /** The events of one round: type the text, press Send, and the backend answers. */
  function Round(text: string, reply: Api.HttpReply<ChatBody>): seq<Event> {
    [Typed(text), Pressed(SendButton), Settled(reply)]
  }

  /**
   * One round from an idle page: the trimmed text is sent and shown as the
   * user's entry; a paywall then opens the upgrade modal with nothing
   * more appended, and any other outcome appends one assistant entry.
   */
  lemma {:induction false} RoundSends(m: Machine, text: string, reply: Api.HttpReply<ChatBody>)
    requires Inv(m) && !m.page.loading && Trim(text) != ""
    ensures var m1 := Run(m, Round(text, reply)[..2]); m1.pending.Some? && MessageText(m1.pending.value) == Trim(text)
  {
    var m0 := m.(page := m.page.(input := text));
    QuietStepKeepsInv(m, m0);
    SendFromIdle(m0);
    RunRound(m, text, reply);
  }

  /** What a round leaves behind: the text typed, Send pressed, and the reply settled. */
  function Exchange(m: Machine, text: string, reply: Api.HttpReply<ChatBody>): Machine {
    Settle(Press(m.(page := m.page.(input := text)), SendButton), reply)
  }

  lemma {:induction false} RoundAppends(m: Machine, text: string, reply: Api.HttpReply<ChatBody>)
    requires Inv(m) && !m.page.loading && Trim(text) != ""
    ensures var r := Run(m, Round(text, reply)); var n := |m.page.messages|;
            && Inv(r) && !r.page.loading
            && |r.page.messages| == (if Classify(reply).Paywall? then n + 1 else n + 2)
            && r.page.messages[..n] == m.page.messages
            && r.page.messages[n].role == User && r.page.messages[n].text == Trim(text)
            && (Classify(reply).Paywall? ==> r.page.showModal)
            && (!Classify(reply).Paywall? ==> r.page.messages[n + 1].role == Assistant)
  {
    ExchangeAppends(m, text, reply);
    RunRound(m, text, reply);
  }

  lemma {:induction false} ExchangeAppends(m: Machine, text: string, reply: Api.HttpReply<ChatBody>)
    requires Inv(m) && !m.page.loading && Trim(text) != ""
    ensures var r := Exchange(m, text, reply); var n := |m.page.messages|;
            && Inv(r) && !r.page.loading
            && |r.page.messages| == (if Classify(reply).Paywall? then n + 1 else n + 2)
            && r.page.messages[..n] == m.page.messages
            && r.page.messages[n].role == User && r.page.messages[n].text == Trim(text)
            && (Classify(reply).Paywall? ==> r.page.showModal)
            && (!Classify(reply).Paywall? ==> r.page.messages[n + 1].role == Assistant)
  {
    var n := |m.page.messages|;
    var m0 := m.(page := m.page.(input := text));
    QuietStepKeepsInv(m, m0);
    var m1 := Press(m0, SendButton);
    SendFromIdle(m0);
    var m2 := Settle(m1, reply);
    SettleAfterSend(m1, reply);
    PrefixOfPrefix(m.page.messages, m1.page.messages, m2.page.messages);
  }

  /** A prefix of a prefix is a prefix, and it keeps the entries it covers. */
  lemma PrefixOfPrefix(a: seq<Msg>, b: seq<Msg>, c: seq<Msg>)
    requires |a| < |b| <= |c| && b[..|a|] == a && c[..|b|] == b
    ensures c[..|a|] == a && c[|a|] == b[|a|]
  {
    assert c[..|a|] == c[..|b|][..|a|];
  }

  /** Pressing Send on an idle page with text to send: the request goes out and the user's entry is appended. */
  lemma SendFromIdle(m: Machine)
    requires Inv(m) && !m.page.loading && Trim(m.page.input) != ""
    ensures var m1 := Press(m, SendButton); var n := |m.page.messages|;
            && Inv(m1) && m1.pending.Some? && MessageText(m1.pending.value) == Trim(m.page.input)
            && |m1.page.messages| == n + 1 && m1.page.messages[..n] == m.page.messages
            && m1.page.messages[n] == Msg(m.page.nextId, User, Trim(m.page.input))
  {
    PressPreservesInv(m, SendButton);
    TrimIdempotent(m.page.input);
    var sub := Begin(m.page, Trim(m.page.input), Ask);
    assert Press(m, SendButton) == Machine(sub.state, sub.request);
  }

  /** The reply to the request in flight: loading ends, and the user's entry is followed by at most one assistant entry. */
  lemma SettleAfterSend(m: Machine, reply: Api.HttpReply<ChatBody>)
    requires Inv(m) && m.pending.Some?
    ensures var m2 := Settle(m, reply); var n := |m.page.messages|;
            && Inv(m2) && !m2.page.loading
            && |m2.page.messages| == (if Classify(reply).Paywall? then n else n + 1)
            && m2.page.messages[..n] == m.page.messages
            && (Classify(reply).Paywall? ==> m2.page.showModal)
            && (!Classify(reply).Paywall? ==> m2.page.messages[n].role == Assistant)
  {
    SettlePreservesInv(m, reply);
  }

  lemma {:induction false} RunCons(m: Machine, e: Event, es: seq<Event>)
    ensures Run(m, [e] + es) == Run(Step(m, e), es)
  {
    assert ([e] + es)[1..] == es;
  }

  lemma StepIsTyped(m: Machine, input: string)
    ensures Step(m, Typed(input)) == m.(page := m.page.(input := input))
  {
  }

  lemma StepIsPress(m: Machine, c: Control)
    ensures Step(m, Pressed(c)) == Press(m, c)
  {
  }

  lemma StepIsSettle(m: Machine, reply: Api.HttpReply<ChatBody>)
    ensures Step(m, Settled(reply)) == Settle(m, reply)
  {
  }

  lemma {:induction false} RunOne(m: Machine, e: Event)
    ensures Run(m, [e]) == Step(m, e)
  {
    assert [e] == [e] + [];
    RunCons(m, e, []);
  }

  /** A round, and its first two events, spelled out as steps. */
  lemma {:induction false} RunRound(m: Machine, text: string, reply: Api.HttpReply<ChatBody>)
    ensures Run(m, Round(text, reply)[..2]) == Press(m.(page := m.page.(input := text)), SendButton)
    ensures Run(m, Round(text, reply)) == Exchange(m, text, reply)
  {
    var m0 := Step(m, Typed(text));
    var m1 := Step(m0, Pressed(SendButton));
    var es := Round(text, reply);
    var tail := [Pressed(SendButton), Settled(reply)];
    assert es == [Typed(text)] + tail;
    RunCons(m, Typed(text), tail);
    assert tail == [Pressed(SendButton)] + [Settled(reply)];
    RunCons(m0, Pressed(SendButton), [Settled(reply)]);
    RunOne(m1, Settled(reply));
    assert es[..2] == [Typed(text)] + [Pressed(SendButton)];
    RunCons(m, Typed(text), [Pressed(SendButton)]);
    RunOne(m0, Pressed(SendButton));
    StepIsTyped(m, text);
    StepIsPress(m0, SendButton);
    StepIsSettle(m1, reply);
  }

  /** The events of several rounds in a row. */
  function Rounds(texts: seq<string>, replies: seq<Api.HttpReply<ChatBody>>): seq<Event>
    requires |texts| == |replies|
    decreases |texts|
  {
    if texts == [] then [] else Round(texts[0], replies[0]) + Rounds(texts[1..], replies[1..])
  }

  /**
   * `msgs` is `base` followed by one user entry per text (trimmed) and an
   * assistant entry after each.
   */
  predicate Alternates(base: seq<Msg>, msgs: seq<Msg>, texts: seq<string>) {
    && |msgs| == |base| + 2 * |texts|
    && msgs[..|base|] == base
    && (forall i | 0 <= i < |texts| ::
          && msgs[|base| + 2 * i].role == User
          && msgs[|base| + 2 * i].text == Trim(texts[i])
          && msgs[|base| + 2 * i + 1].role == Assistant)
  }

  /** One round's entries followed by the rest's are all the rounds' entries. */
  lemma AlternatesCompose(base: seq<Msg>, mid: seq<Msg>, msgs: seq<Msg>, texts: seq<string>)
    requires texts != []
    requires Alternates(base, mid, texts[..1]) && Alternates(mid, msgs, texts[1..])
    ensures Alternates(base, msgs, texts)
  {
    var n := |base|;
    assert msgs[..n] == msgs[..|mid|][..n];
    forall i | 0 <= i < |texts|
      ensures && msgs[n + 2 * i].role == User
              && msgs[n + 2 * i].text == Trim(texts[i])
              && msgs[n + 2 * i + 1].role == Assistant
    {
      if i == 0 {
        assert msgs[n] == mid[n] && msgs[n + 1] == mid[n + 1];
        assert texts[..1][0] == texts[0];
      } else {
        assert n + 2 * i == |mid| + 2 * (i - 1);
        assert texts[i] == texts[1..][i - 1];
      }
    }
  }

  /** A round that is not paywalled adds one user entry and one assistant entry. */
  lemma RoundAlternates(m: Machine, text: string, reply: Api.HttpReply<ChatBody>)
    requires Inv(m) && !m.page.loading && Trim(text) != "" && !Classify(reply).Paywall?
    ensures var r := Run(m, Round(text, reply));
            Inv(r) && !r.page.loading && Alternates(m.page.messages, r.page.messages, [text])
  {
    RoundAppends(m, text, reply);
    var r := Run(m, Round(text, reply));
    OneRoundAlternates(m.page.messages, r.page.messages, text);
  }

  /** A user entry for `text` followed by an assistant entry is one alternating round. */
  lemma OneRoundAlternates(base: seq<Msg>, msgs: seq<Msg>, text: string)
    requires |msgs| == |base| + 2 && msgs[..|base|] == base
    requires msgs[|base|].role == User && msgs[|base|].text == Trim(text)
    requires msgs[|base| + 1].role == Assistant
    ensures Alternates(base, msgs, [text])
  {
  }

  /**
   * `k` rounds, none of them paywalled: the transcript grows by `2k`
   * entries that alternate user and assistant, the user's entries being the
   * trimmed texts in order.
   */
  lemma {:induction false} RoundsAlternate(m: Machine, texts: seq<string>, replies: seq<Api.HttpReply<ChatBody>>)
    requires Inv(m) && !m.page.loading
    requires |texts| == |replies|
    requires forall i | 0 <= i < |texts| :: Trim(texts[i]) != ""
    requires forall i | 0 <= i < |replies| :: !Classify(replies[i]).Paywall?
    ensures var r := Run(m, Rounds(texts, replies));
            Inv(r) && !r.page.loading && Alternates(m.page.messages, r.page.messages, texts)
    decreases |texts|
  {
    if texts == [] {
      assert m.page.messages[..|m.page.messages|] == m.page.messages;
    } else {
      var first := Round(texts[0], replies[0]);
      var rest := Rounds(texts[1..], replies[1..]);
      RunConcat(m, first, rest);
      RoundAlternates(m, texts[0], replies[0]);
      var m1 := Run(m, first);
      assert texts[..1] == [texts[0]];
      RoundsAlternate(m1, texts[1..], replies[1..]);
      AlternatesCompose(m.page.messages, m1.page.messages, Run(m1, rest).page.messages, texts);
    }
  }
}

=== FILE: entitlements.dfy ===
/**
 * The entitlements adapter (src/lib/entitlements.ts, `fetchEntitlements`): it
 * reads the plan and usage snapshot, falling back to fixed values when the
 * body cannot be parsed or the call fails, and never throws.
 */
module Entitlements {
  import opened Wrappers
  import opened Js
  import opened Api

  /** The `Entitlements` record the function promises (its fields are not checked at run time). */
  datatype Entitlements = Entitlements(
    ok: bool,
    plan: Option<string>,
    isPremium: bool,
    dailyLimit: Option<int>,
    dailyUsed: int,
    dailyRemaining: Option<int>,
    advanced: bool)

  /** The value returned when the body is not JSON. */
  const ParseFallback := Entitlements(false, None, false, Some(3), 0, Some(3), false)

  /** The value returned when the request itself fails. */
  const NetworkFallback := Entitlements(true, Some("free"), false, Some(3), 0, Some(3), false)

  const EntitlementsPath := "/api/me/entitlements"

  function NullableStr(v: Option<string>): Json {
    if v.Some? then JStr(v.value) else JNull
  }

  function NullableNum(v: Option<int>): Json {
    if v.Some? then JNum(v.value) else JNull
  }

  /** The record as a JSON object, `null` standing for a missing plan or limit. */
  function ToJson(e: Entitlements): Json {
    JObj([
      ("ok", JBool(e.ok)),
      ("plan", NullableStr(e.plan)),
      ("isPremium", JBool(e.isPremium)),
      ("dailyLimit", NullableNum(e.dailyLimit)),
      ("dailyUsed", JNum(e.dailyUsed)),
      ("dailyRemaining", NullableNum(e.dailyRemaining)),
      ("advanced", JBool(e.advanced))])
  }

  /** A boolean field; `None` when missing or not a boolean. */
  function BoolField(f: seq<(string, Json)>, key: string): Option<bool> {
    match Lookup(f, key)
    case Some(JBool(b)) => Some(b)
    case _ => None
  }

  /** A number field; `None` when missing or not a number. */
  function NumField(f: seq<(string, Json)>, key: string): Option<int> {
    match Lookup(f, key)
    case Some(JNum(n)) => Some(n)
    case _ => None
  }

  /** A string-or-null field; `None` when missing or of another type. */
  function NullableStrField(f: seq<(string, Json)>, key: string): Option<Option<string>> {
    match Lookup(f, key)
    case Some(JStr(v)) => Some(Some(v))
    case Some(JNull) => Some(None)
    case _ => None
  }

  /** A number-or-null field; `None` when missing or of another type. */
  function NullableNumField(f: seq<(string, Json)>, key: string): Option<Option<int>> {
    match Lookup(f, key)
    case Some(JNum(n)) => Some(Some(n))
    case Some(JNull) => Some(None)
    case _ => None
  }

  /** Reads a JSON document as an `Entitlements` record, `None` when a field is missing or mistyped. */
  function FromJson(j: Json): Option<Entitlements> {
    if !j.JObj? then None
    else
      var f := j.fields;
      var ok, plan, premium := BoolField(f, "ok"), NullableStrField(f, "plan"), BoolField(f, "isPremium");
      var limit, used, left := NullableNumField(f, "dailyLimit"), NumField(f, "dailyUsed"), NullableNumField(f, "dailyRemaining");
      var adv := BoolField(f, "advanced");
      if ok.Some? && plan.Some? && premium.Some? && limit.Some? && used.Some? && left.Some? && adv.Some? then
        Some(Entitlements(ok.value, plan.value, premium.value, limit.value, used.value, left.value, adv.value))
      else None
  }

  /** Reading a record's JSON back gives the record. */
  lemma FromJsonToJson(e: Entitlements)
    ensures FromJson(ToJson(e)) == Some(e)
  {
    BoolFieldAt(e, 0);
    NullableStrFieldAt(e, 1);
    BoolFieldAt(e, 2);
    NullableNumFieldAt(e, 3, e.dailyLimit);
    NumFieldAt(e, 4);
    NullableNumFieldAt(e, 5, e.dailyRemaining);
    BoolFieldAt(e, 6);
  }

  /** Each field reader finds the field a record's JSON holds at position `i`. */
  lemma BoolFieldAt(e: Entitlements, i: nat)
    requires i < |ToJson(e).fields| && ToJson(e).fields[i].1.JBool?
    ensures BoolField(ToJson(e).fields, ToJson(e).fields[i].0) == Some(ToJson(e).fields[i].1.b)
  {
    ToJsonLookup(e, i);
  }

  lemma NumFieldAt(e: Entitlements, i: nat)
    requires i < |ToJson(e).fields| && ToJson(e).fields[i].1.JNum?
    ensures NumField(ToJson(e).fields, ToJson(e).fields[i].0) == Some(ToJson(e).fields[i].1.n)
  {
    ToJsonLookup(e, i);
  }

  lemma NullableStrFieldAt(e: Entitlements, i: nat)
    requires i < |ToJson(e).fields| && ToJson(e).fields[i].1 == NullableStr(e.plan)
    ensures NullableStrField(ToJson(e).fields, ToJson(e).fields[i].0) == Some(e.plan)
  {
    ToJsonLookup(e, i);
  }

  lemma NullableNumFieldAt(e: Entitlements, i: nat, v: Option<int>)
    requires i < |ToJson(e).fields| && ToJson(e).fields[i].1 == NullableNum(v)
    ensures NullableNumField(ToJson(e).fields, ToJson(e).fields[i].0) == Some(v)
  {
    ToJsonLookup(e, i);
  }

  /** The keys of a record's JSON are distinct, so each one finds its own value. */
  lemma ToJsonLookup(e: Entitlements, i: nat)
    requires i < |ToJson(e).fields|
    ensures Lookup(ToJson(e).fields, ToJson(e).fields[i].0) == Some(ToJson(e).fields[i].1)
  {
    LookupFirst(ToJson(e).fields, i);
  }

  /** In a field list whose keys are distinct, each key finds its own value. */
  lemma {:induction false} LookupFirst(f: seq<(string, Json)>, i: nat)
    requires i < |f|
    requires forall j | 0 <= j < i :: f[j].0 != f[i].0
    ensures Lookup(f, f[i].0) == Some(f[i].1)
  {
    if i > 0 {
      LookupFirst(f[1..], i - 1);
    }
  }

  /** The request path: the session id is appended, URI-encoded by `enc`, only when it is non-empty. */
  function PathFor(sessionId: Option<string>, enc: string -> string): (path: string)
    ensures TruthyStr(sessionId) ==> path == EntitlementsPath + "?sessionId=" + enc(sessionId.value)
    ensures !TruthyStr(sessionId) ==> path == EntitlementsPath
  {
    if TruthyStr(sessionId) then EntitlementsPath + "?sessionId=" + enc(sessionId.value) else EntitlementsPath
  }

  /** The request `fetchEntitlements` issues: the path already holds "/api" and `apiUrl` adds it again. */
  function EntitlementsRequest(sessionId: Option<string>, enc: string -> string, env: Env): (req: Request)
    ensures req.url == Origin(env) + Prefix + PathFor(sessionId, enc)
    ensures Origin(env) + Prefix + EntitlementsPath <= req.url
    ensures req.init.verb == Some("GET") && req.init.credentials == Some("include")
  {
    var path := PathFor(sessionId, enc);
    assert EntitlementsPath <= path;
    assert WithLeadingSlash(path) == path;
    assert Origin(env) + Prefix + EntitlementsPath <= Origin(env) + Prefix + path;
    ApiFetch(path, Some(RequestInit(Some("GET"), None, None, None)), env)
  }

  /**
   * What the call yields: a transport failure (the fetch or the body read threw),
   * or a response with its status, its body text, and `JSON.parse` of that text
   * (`None` when it throws).
   */
  datatype TextReply = TextTransportError | TextResponse(status: int, text: string, parsed: Option<Json>)

  /** What `fetchEntitlements` resolves with. */
  function FetchEntitlements(r: TextReply): (doc: Json)
    ensures r.TextTransportError? ==> FromJson(doc) == Some(NetworkFallback)
    ensures r.TextResponse? && r.text == "" ==> doc == JObj([])
    ensures r.TextResponse? && r.text != "" && r.parsed.Some? ==> doc == r.parsed.value
    ensures r.TextResponse? && r.text != "" && r.parsed.None? ==> FromJson(doc) == Some(ParseFallback)
  {
    match r
    case TextTransportError =>
      FromJsonToJson(NetworkFallback);
      ToJson(NetworkFallback)
    case TextResponse(_, text, parsed) =>
      if text == "" then JObj([])
      else if parsed.Some? then parsed.value
      else
        FromJsonToJson(ParseFallback);
        ToJson(ParseFallback)
  }

  /** An empty body is handed back as `{}`, which is not a well-formed record: nothing is validated. */
  lemma EmptyBodyIsNotAnEntitlements(status: int, parsed: Option<Json>)
    ensures FromJson(FetchEntitlements(TextResponse(status, "", parsed))).None?
  {
  }

  /** The HTTP status is never looked at. */
  lemma StatusIsIgnored(s1: int, s2: int, text: string, parsed: Option<Json>)
    ensures FetchEntitlements(TextResponse(s1, text, parsed)) == FetchEntitlements(TextResponse(s2, text, parsed))
  {
  }

  /** The two fallbacks differ only in `ok` and `plan`: both grant three free replies a day, none used. */
  lemma FallbacksShareLimits()
    ensures NetworkFallback.(ok := false, plan := None) == ParseFallback
    ensures NetworkFallback.ok && !ParseFallback.ok
    ensures ParseFallback.dailyLimit == ParseFallback.dailyRemaining == Some(3) && ParseFallback.dailyUsed == 0
    ensures !NetworkFallback.isPremium && !ParseFallback.isPremium
  {
  }
}

=== FILE: js.dfy ===
/**
 * The slice of JavaScript semantics the front end relies on: JSON values,
 * truthiness, the `??` and `||` operators, `String.prototype.trim`, the
 * one-trailing-slash regex replace, decimal rendering of integers and
 * `Array.prototype.join`.
 */
module Js {
  import opened Wrappers

  /** A parsed JSON document (numbers restricted to integers). */
  datatype Json =
    | JNull
    | JBool(b: bool)
    | JNum(n: int)
    | JStr(s: string)
    | JArr(items: seq<Json>)
    | JObj(fields: seq<(string, Json)>)

  /** JavaScript truthiness of a JSON value. */
  predicate Truthy(v: Json) {
    match v
    case JNull => false
    case JBool(b) => b
    case JNum(n) => n != 0
    case JStr(s) => s != ""
    case JArr(_) => true
    case JObj(_) => true
  }

  /** Truthiness of a value that may be `undefined`. */
  predicate TruthyOpt(v: Option<Json>) {
    v.Some? && Truthy(v.value)
  }

  /** Truthiness of a string-or-undefined value: present and non-empty. */
  predicate TruthyStr(v: Option<string>) {
    v.Some? && v.value != ""
  }

  /** `Boolean(v)` */
  function ToBoolean(v: Option<Json>): (b: bool)
    ensures b <==> TruthyOpt(v)
  {
    match v
    case None => false
    case Some(j) => Truthy(j)
  }

  /** `a ?? b`: the left operand unless it is `undefined`, even when it is the empty string. */
  function Nullish<T>(a: Option<T>, b: Option<T>): (r: Option<T>)
    ensures a.Some? ==> r == a
    ensures a.None? ==> r == b
    ensures r.Some? <==> a.Some? || b.Some?
  {
    if a.Some? then a else b
  }

  /** `a || b` on string-or-undefined operands: the left operand unless it is falsy. */
  function Or(a: Option<string>, b: Option<string>): (r: Option<string>)
    ensures TruthyStr(a) ==> r == a
    ensures !TruthyStr(a) ==> r == b
    ensures TruthyStr(r) <==> TruthyStr(a) || TruthyStr(b)
  {
    if TruthyStr(a) then a else b
  }

  /** The two operators differ on the empty string: `??` keeps it, `||` skips it. */
  lemma NullishKeepsEmptyOrSkipsIt(b: Option<string>)
    ensures Nullish(Some(""), b) == Some("")
    ensures Or(Some(""), b) == b
  {
  }

  // ---------------------------------------------------------------- trim

  /** The characters `String.prototype.trim` removes: ECMAScript WhiteSpace and LineTerminator. */
  predicate IsSpace(c: char) {
    || c == '\t' || c == '\n' || c == '\U{000B}' || c == '\U{000C}' || c == '\r' || c == ' '
    || c == '\U{00A0}' || c == '\U{1680}' || ('\U{2000}' <= c <= '\U{200A}')
    || c == '\U{2028}' || c == '\U{2029}' || c == '\U{202F}' || c == '\U{205F}'
    || c == '\U{3000}' || c == '\U{FEFF}'
  }

  predicate AllSpace(s: string) {
    forall i | 0 <= i < |s| :: IsSpace(s[i])
  }

  /** The end of the run of whitespace that starts at `i`. */
  function SpaceRunFrom(s: string, i: nat): (j: nat)
    requires i <= |s|
    ensures i <= j <= |s|
    ensures forall k | i <= k < j :: IsSpace(s[k])
    ensures j < |s| ==> !IsSpace(s[j])
    decreases |s| - i
  {
    if i < |s| && IsSpace(s[i]) then SpaceRunFrom(s, i + 1) else i
  }

  /** The start of the run of whitespace that ends at `j`, not going below `lo`. */
  function SpaceRunBefore(s: string, lo: nat, j: nat): (i: nat)
    requires lo <= j <= |s|
    ensures lo <= i <= j
    ensures forall k | i <= k < j :: IsSpace(s[k])
    ensures i > lo ==> !IsSpace(s[i - 1])
    decreases j
  {
    if j > lo && IsSpace(s[j - 1]) then SpaceRunBefore(s, lo, j - 1) else j
  }

  /** The number of whitespace characters `s` starts with. */
  function Leading(s: string): nat
    ensures Leading(s) <= |s|
  {
    SpaceRunFrom(s, 0)
  }

  /**
   * `s.trim()`: the text between the leading and the trailing whitespace,
   * which neither starts nor ends with whitespace itself.
   */
  function Trim(s: string): (r: string)
    ensures var a := Leading(s); var b := a + |r|;
            && b <= |s| && r == s[a..b]
            && (forall k | 0 <= k < a :: IsSpace(s[k]))
            && (forall k | b <= k < |s| :: IsSpace(s[k]))
    ensures r == [] || (!IsSpace(r[0]) && !IsSpace(r[|r| - 1]))
  {
    var a := SpaceRunFrom(s, 0);
    var b := SpaceRunBefore(s, a, |s|);
    s[a..b]
  }

  /** A string trims to the empty string exactly when it is all whitespace. */
  lemma TrimEmptyIff(s: string)
    ensures Trim(s) == [] <==> AllSpace(s)
  {
  }

  /** A string without whitespace at either end is its own trim. */
  lemma TrimOfTrimmed(s: string)
    requires s == [] || (!IsSpace(s[0]) && !IsSpace(s[|s| - 1]))
    ensures Trim(s) == s
  {
    assert SpaceRunFrom(s, 0) == 0;
    assert SpaceRunBefore(s, 0, |s|) == |s|;
  }

  /** Trimming twice is trimming once. */
  lemma TrimIdempotent(s: string)
    ensures Trim(Trim(s)) == Trim(s)
  {
    TrimOfTrimmed(Trim(s));
  }

  // ---------------------------------------------------------------- regex replace

  /** `s.replace(/\/$/, '')`: removes a single "/" at the very end, if there is one. */
  function StripTrailingSlash(s: string): (r: string)
    ensures r == s || r + "/" == s
    ensures r + "/" == s <==> (|s| > 0 && s[|s| - 1] == '/')
  {
    if |s| > 0 && s[|s| - 1] == '/' then s[..|s| - 1] else s
  }

  // ---------------------------------------------------------------- numbers

  function DigitChar(d: nat): (c: char)
    requires d < 10
    ensures '0' <= c <= '9'
  {
    ['0', '1', '2', '3', '4', '5', '6', '7', '8', '9'][d]
  }

  /** Decimal digits of `n`, without leading zeros. */
  function NatToString(n: nat): (s: string)
    ensures |s| > 0
    ensures AllDigits(s)
    ensures |s| > 1 ==> s[0] != '0'
  {
    if n < 10 then [DigitChar(n)] else NatToString(n / 10) + [DigitChar(n % 10)]
  }

  /**
   * The template-literal rendering `${n}` of an integer: decimal digits that
   * read back as the number, without leading zeros, after a "-" when it is
   * negative.
   */
  function IntToString(n: int): (s: string)
    ensures |s| > 0
    ensures n >= 0 ==> AllDigits(s) && ParseDigits(s) == n
    ensures n < 0 ==> s[0] == '-' && AllDigits(s[1..]) && ParseDigits(s[1..]) == -n
    ensures n >= 0 && |s| > 1 ==> s[0] != '0'
    ensures n < 0 ==> |s| > 1 && s[1] != '0'
  {
    if n < 0 then
      ParseNatToString(-n);
      Negated(NatToString(-n), -n);
      "-" + NatToString(-n)
    else
      ParseNatToString(n);
      NatToString(n)
  }

  /** A "-" in front of the digits of `m`: the digits after the sign still read back as `m`. */
  lemma Negated(d: string, m: nat)
    requires AllDigits(d) && ParseDigits(d) == m
    ensures ("-" + d)[0] == '-' && ("-" + d)[1..] == d
    ensures AllDigits(("-" + d)[1..]) && ParseDigits(("-" + d)[1..]) == m
    ensures |d| > 0 ==> ("-" + d)[1] == d[0]
  {
    assert ("-" + d)[1..] == d;
  }

  predicate AllDigits(s: string) {
    forall i | 0 <= i < |s| :: '0' <= s[i] <= '9'
  }

  /** Reads a string of decimal digits back as a number (the inverse of `NatToString`). */
  function ParseDigits(s: string): nat
    requires AllDigits(s)
  {
    if s == [] then 0 else 10 * ParseDigits(s[..|s| - 1]) + (s[|s| - 1] as int - '0' as int)
  }

  lemma {:induction false} ParseNatToString(n: nat)
    ensures ParseDigits(NatToString(n)) == n
  {
    if n >= 10 {
      var s := NatToString(n);
      assert s[..|s| - 1] == NatToString(n / 10);
      ParseNatToString(n / 10);
    }
  }

  lemma NatToStringInjective(m: nat, n: nat)
    requires NatToString(m) == NatToString(n)
    ensures m == n
  {
    ParseNatToString(m);
    ParseNatToString(n);
  }

  /** Distinct numbers render as distinct strings. */
  lemma IntToStringInjective(m: int, n: int)
    requires IntToString(m) == IntToString(n)
    ensures m == n
  {
    var sm, sn := IntToString(m), IntToString(n);
    if m < 0 && n < 0 {
      assert NatToString(-m) == sm[1..];
      assert NatToString(-n) == sn[1..];
      NatToStringInjective(-m, -n);
    } else if m >= 0 && n >= 0 {
      NatToStringInjective(m, n);
    }
  }

  // ---------------------------------------------------------------- join

  /** `parts.join(sep)` */
  function Join(parts: seq<string>, sep: string): (r: string)
    ensures |parts| == 1 ==> r == parts[0]
    ensures |parts| == 0 ==> r == ""
    ensures |parts| > 0 ==> parts[0] <= r
    ensures |parts| > 0 ==> |parts[|parts| - 1]| <= |r| && r[|r| - |parts[|parts| - 1]|..] == parts[|parts| - 1]
    ensures |parts| > 1 ==> |r| >= |parts[0]| + |sep| + |parts[|parts| - 1]|
  {
    if |parts| == 0 then ""
    else if |parts| == 1 then parts[0]
    else
      var init := parts[..|parts| - 1];
      var head := Join(init, sep);
      var r := head + sep + parts[|parts| - 1];
      assert init[0] == parts[0];
      assert head == r[..|head|];
      r
  }

  // ---------------------------------------------------------------- objects

  /** Looking a key up in two concatenated field lists: the first list wins. */
  lemma {:induction false} LookupConcat(a: seq<(string, Json)>, b: seq<(string, Json)>, key: string)
    ensures Lookup(a + b, key) == (if Lookup(a, key).Some? then Lookup(a, key) else Lookup(b, key))
  {
    if |a| > 0 {
      assert (a + b)[1..] == a[1..] + b;
      LookupConcat(a[1..], b, key);
    } else {
      assert a + b == b;
    }
  }

  /** `obj[key]` on a JSON object given as its fields in insertion order. */
  function Lookup(fields: seq<(string, Json)>, key: string): (r: Option<Json>)
    ensures r.None? <==> forall i | 0 <= i < |fields| :: fields[i].0 != key
    ensures r.Some? ==> exists i | 0 <= i < |fields| :: fields[i] == (key, r.value)
  {
    if |fields| == 0 then None
    else if fields[0].0 == key then Some(fields[0].1)
    else
      var r := Lookup(fields[1..], key);
      assert forall i | 1 <= i < |fields| :: fields[i] == fields[1..][i - 1];
      r
  }
}

=== FILE: page.dfy ===
/**
 * The conversation page (src/components/PremiumDatingAdvicePage.tsx): the
 * transcript and usage snapshot it keeps, the two steps of a submission
 * (`Begin` appends the user's message and builds the request, `Complete`
 * applies what the advice adapter settled with), the bootstrap greeting,
 * the quota label and the screenshot-analysis text.
 */
module Page {
  import opened Wrappers
  import opened Js
  import opened Advice
  import Composer
  import Checkout

  datatype Role = User | Assistant

  /** A transcript entry; `id` stands for the random UUID the page draws. */
  datatype Msg = Msg(id: nat, role: Role, text: string)

  /** The modes of the composer's tab strip. */
  datatype Mode = DatingAdvice | Rizz | StrategyMode

  function ModeValue(m: Mode): string {
    match m
    case DatingAdvice => "dating_advice"
    case Rizz => "rizz"
    case StrategyMode => "strategy"
  }

  /** Which composer control started a submission: Send/Enter (`pushUser`) or Quick Analyze (`pushStrategy`). */
  datatype Kind = Ask | QuickAnalyze

  /**
   * The page's state. `nextId` is the source of fresh message ids that
   * replaces `crypto.randomUUID`.
   */
  datatype State = State(
    messages: seq<Msg>,
    isPremium: bool,
    remaining: Option<int>,
    tone: string,
    input: string,
    loading: bool,
    showModal: bool,
    mode: Mode,
    sessionId: string,
    nextId: nat)

  /** The state on mount. */
  function Initial(sessionId: string): State {
    State([], false, None, "Calm", "", false, false, DatingAdvice, sessionId, 0)
  }

  /** An em dash as the page's string literals hold it: its UTF-8 bytes read back as Windows-1252 ("â€”"). */
  const Mojibake: string := ['\U{00E2}', '\U{20AC}', '\U{201D}']

  const Glitch := "Hey " + Mojibake + " something glitched. Refresh and try again."
  const EmptyAdvice := "I generated advice, but it returned empty."
  const WindowSize := 12

  // ---------------------------------------------------------------- context window

  function SpeakerOf(r: Role): Speaker {
    match r
    case User => Me
    case Assistant => Them
  }

  function TurnOf(m: Msg): Turn {
    Turn(SpeakerOf(m.role), m.text)
  }

  /**
   * The conversation context sent with a request: the last (at most) twelve
   * transcript entries, oldest first, as `{from, text}`.
   */
  function ContextWindow(msgs: seq<Msg>): (ctx: seq<Turn>)
    ensures |ctx| <= WindowSize
    ensures |ctx| == if |msgs| < WindowSize then |msgs| else WindowSize
    ensures forall i | 0 <= i < |ctx| :: ctx[i] == TurnOf(msgs[|msgs| - |ctx| + i])
  {
    var start := if |msgs| < WindowSize then 0 else |msgs| - WindowSize;
    var recent := msgs[start..];
    seq(|recent|, i requires 0 <= i < |recent| => TurnOf(recent[i]))
  }

  /** The window slides: one more entry is added at the end, and the oldest drops out once twelve are held. */
  lemma ContextWindowSlides(msgs: seq<Msg>, m: Msg)
    ensures var ctx := ContextWindow(msgs);
            ContextWindow(msgs + [m]) == (if |ctx| < WindowSize then ctx else ctx[1..]) + [TurnOf(m)]
  {
    var ctx := ContextWindow(msgs);
    var next := ContextWindow(msgs + [m]);
    var expected := (if |ctx| < WindowSize then ctx else ctx[1..]) + [TurnOf(m)];
    assert |next| == |expected|;
    forall i | 0 <= i < |next| ensures next[i] == expected[i] {
      if i < |next| - 1 {
        var j := |msgs + [m]| - |next| + i;
        assert (msgs + [m])[j] == msgs[j];
      }
    }
  }

  // ---------------------------------------------------------------- submission, step one

  /** The result of the first step: the new state and the payload handed to `fetchAdvice`, if any. */
  datatype Submission = Submission(state: State, request: Option<Payload>)

  /** The tone sent: the selected one for premium users, "Neutral" otherwise. */
  function ToneSent(s: State): string {
    if s.isPremium then s.tone else "Neutral"
  }

  /** The payload `pushUser` / `pushStrategy` pass to `fetchAdvice`. */
  function RequestFor(s: State, trimmed: string, kind: Kind): Payload {
    var situation := if kind == Ask then "General dating conversation" else "Quick strategist analysis";
    var goal := if kind == Ask then "Get the best next message + plan" else "Fast verdict + next move";
    var mode := if kind == Ask then ModeValue(s.mode) else "strategy";
    Payload(Some(situation), Some(goal), Some(ToneSent(s)), Some(ContextWindow(s.messages)),
            None, None, Some(trimmed), None, Some(mode), None, Some(s.sessionId))
  }

  /** The user message `Begin` would append. */
  function UserMsg(s: State, text: string): Msg {
    Msg(s.nextId, User, Trim(text))
  }

  /**
   * `pushUser(text)` / `pushStrategy(text)` up to the network call: refused
   * when the trimmed text is empty or a request is in flight; otherwise the
   * user message is appended at once and the request is built from the
   * transcript as it stood before.
   */
  function Begin(s: State, text: string, kind: Kind): (sub: Submission)
    ensures Trim(text) == "" || s.loading ==> sub == Submission(s, None)
    ensures Trim(text) != "" && !s.loading ==>
      && sub.request.Some?
      && sub.state.loading
      && sub.state.input == ""
      && |sub.state.messages| == |s.messages| + 1
      && sub.state.messages[..|s.messages|] == s.messages
      && sub.state.messages[|s.messages|].role == User
      && sub.state.messages[|s.messages|].text == Trim(text)
      && MessageText(sub.request.value) == Trim(text)
      && sub.request.value.conversation == Some(ContextWindow(s.messages))
      && sub.request.value.mode == Some(if kind == Ask then ModeValue(s.mode) else "strategy")
      && sub.request.value.sessionId == Some(s.sessionId)
      && sub.state.isPremium == s.isPremium && sub.state.remaining == s.remaining
      && sub.state.showModal == s.showModal
      && sub.state.tone == s.tone && sub.state.mode == s.mode && sub.state.sessionId == s.sessionId
  {
    var trimmed := Trim(text);
    if trimmed == "" || s.loading then Submission(s, None)
    else
      var s' := s.(messages := s.messages + [UserMsg(s, text)], input := "", loading := true, nextId := s.nextId + 1);
      assert s'.messages[..|s.messages|] == s.messages;
      Submission(s', Some(RequestFor(s, trimmed, kind)))
  }

  /**
   * `pushStrategy` is `pushUser` with the mode forced to "strategy": the
   * state changes alike and the posted JSON is the one `pushUser` would post
   * in strategy mode.
   */
  lemma QuickAnalyzeIsAskInStrategyMode(s: State, text: string, env: Api.Env)
    ensures Begin(s, text, QuickAnalyze).state == Begin(s, text, Ask).state
    ensures Begin(s, text, QuickAnalyze).request.Some? ==>
      AdviceRequest(Begin(s, text, QuickAnalyze).request.value, env)
        == AdviceRequest(Begin(s.(mode := StrategyMode), text, Ask).request.value, env)
  {
    var t := Trim(text);
    if t != "" && !s.loading {
      var q := RequestFor(s, t, QuickAnalyze);
      var a := RequestFor(s.(mode := StrategyMode), t, Ask);
      assert q == a.(situation := q.situation, goal := q.goal);
      WireBodyDropsContext(a, a.conversation, q.situation, q.goal);
    }
  }

  /** The tone on the wire is "Neutral" unless the user is premium, and then it is the selected one. */
  lemma TonePremiumOnly(s: State, text: string, kind: Kind)
    requires Trim(text) != "" && !s.loading
    ensures Begin(s, text, kind).request.Some?
    ensures Begin(s, text, kind).request.value.tone == Some(if s.isPremium then s.tone else "Neutral")
    ensures s.tone in Composer.ToneChoices ==>
              Begin(s, text, kind).request.value.tone.value in Composer.ToneChoices + ["Neutral"]
  {
  }

  // ---------------------------------------------------------------- advice display

  /** `replies[key]?.[0]` */
  function FirstReply(replies: Option<map<string, seq<string>>>, key: string): Option<string> {
    if replies.Some? && key in replies.value && |replies.value[key]| > 0 then Some(replies.value[key][0]) else None
  }

  /** The reply candidate shown in the fallback: confident, else playful, else sweet, else "". */
  function Pick(replies: Option<map<string, seq<string>>>): (p: string)
    ensures TruthyStr(FirstReply(replies, "confident")) ==> p == FirstReply(replies, "confident").value
    ensures !TruthyStr(FirstReply(replies, "confident")) && TruthyStr(FirstReply(replies, "playful"))
            ==> p == FirstReply(replies, "playful").value
    ensures !TruthyStr(FirstReply(replies, "confident")) && !TruthyStr(FirstReply(replies, "playful"))
            ==> p == FirstReply(replies, "sweet").GetOr("")
  {
    Or(FirstReply(replies, "confident"), Or(FirstReply(replies, "playful"), FirstReply(replies, "sweet"))).GetOr("")
  }

  /** `value ? value + "\n" : ""` */
  function Line(v: Option<string>): string {
    if TruthyStr(v) then v.value + "\n" else ""
  }

  /** The text assembled from the strategy headline, its rationale and a reply candidate. */
  function Fallback(a: Answer): string {
    var headline := if a.strategy.Some? then Line(a.strategy.value.headline) else "";
    var why := if a.strategy.Some? then Line(a.strategy.value.why) else "";
    headline + why + Pick(a.replies)
  }

  /** `formatAdviceToText(result)` */
  function FormatAdviceToText(a: Answer): (text: string)
    ensures Trim(a.message) != "" ==> text == a.message
    ensures Trim(a.message) == "" ==> text == Trim(Fallback(a)) && Trim(text) == text
  {
    if |Trim(a.message)| > 0 then a.message
    else
      TrimIdempotent(Fallback(a));
      Trim(Fallback(a))
  }

  /** The assistant text a settled answer becomes. */
  function AssistantText(a: Answer): (text: string)
    ensures text != ""
    ensures FormatAdviceToText(a) != "" ==> text == FormatAdviceToText(a)
    ensures FormatAdviceToText(a) == "" ==> text == EmptyAdvice
  {
    var t := FormatAdviceToText(a);
    if t != "" then t else EmptyAdvice
  }

  /**
   * Every answer the adapter produces carries a non-blank message, so it is
   * displayed verbatim (untrimmed) and the "returned empty" text never appears
   * in its place.
   */
  lemma AnswersShownVerbatim(r: Api.HttpReply<ChatBody>)
    requires Classify(r).Answered?
    ensures AssistantText(Classify(r).answer) == ReplyText(r.body)
    ensures FormatAdviceToText(Classify(r).answer) != ""
  {
  }

  // ---------------------------------------------------------------- submission, step two

  /** The assistant message `Complete` appends for an outcome, `None` for a paywall. */
  function Reply(s: State, o: Outcome): Option<Msg> {
    match o
    case Paywall(_) => None
    case Answered(a) => Some(Msg(s.nextId, Assistant, AssistantText(a)))
    case Thrown(msg) => Some(Msg(s.nextId, Assistant, "Error: " + msg))
  }

  /**
   * The rest of `pushUser` / `pushStrategy` once `fetchAdvice` settles: a
   * paywall opens the upgrade modal, an answer is appended (after adopting
   * the usage snapshot it carries), an error is appended as "Error: ...";
   * in every case `loading` is cleared.
   */
  function Complete(s: State, o: Outcome): (t: State)
    ensures !t.loading
    ensures t.input == s.input && t.tone == s.tone && t.mode == s.mode && t.sessionId == s.sessionId
    ensures o.Paywall? ==> t.messages == s.messages && t.showModal
    ensures !o.Paywall? ==> t.showModal == s.showModal
    ensures o.Thrown? ==> t.messages == s.messages + [Msg(s.nextId, Assistant, "Error: " + o.message)]
    ensures o.Answered? ==> |t.messages| == |s.messages| + 1 && t.messages[..|s.messages|] == s.messages
                            && t.messages[|s.messages|].role == Assistant
                            && t.messages[|s.messages|].text == AssistantText(o.answer)
    ensures o.Answered? && o.answer.usage.Some? ==>
              t.isPremium == ToBoolean(o.answer.usage.value.isPremium) && t.remaining == o.answer.usage.value.remaining
    ensures !(o.Answered? && o.answer.usage.Some?) ==> t.isPremium == s.isPremium && t.remaining == s.remaining
    ensures t.nextId >= s.nextId
  {
    match o
    case Paywall(_) => s.(showModal := true, loading := false)
    case Thrown(msg) =>
      s.(messages := s.messages + [Reply(s, o).value], nextId := s.nextId + 1, loading := false)
    case Answered(a) =>
      var s1 := if a.usage.Some? then s.(isPremium := ToBoolean(a.usage.value.isPremium), remaining := a.usage.value.remaining) else s;
      var t := s1.(messages := s.messages + [Reply(s, o).value], nextId := s.nextId + 1, loading := false);
      assert t.messages[..|s.messages|] == s.messages;
      t
  }

  // ---------------------------------------------------------------- bootstrap

  /** The parsed body of the `/chat/init` reply; only the fields the page reads. */
  datatype InitBody = InitBody(ok: Option<Json>, error: Option<string>, reply: Option<Json>, usage: Option<Usage>)

  /** Whether the bootstrap reached its success path: nothing threw and the body says `ok`. */
  predicate BootSucceeded(token: Api.HttpReply<Json>, init: Api.HttpReply<InitBody>) {
    token.Response? && init.Response? && init.body.Some? && TruthyOpt(init.body.value.ok)
  }

  /** `typeof data.reply === 'string' ? data.reply.trim() : ''` */
  function GreetingText(b: InitBody): string {
    if b.reply.Some? && b.reply.value.JStr? then Trim(b.reply.value.s) else ""
  }

  /**
   * The mount effect: the token call (whose reply is ignored unless it
   * throws), then `/chat/init`; the transcript becomes exactly one assistant
   * greeting, the fixed glitch text whenever anything fails.
   */
  function Boot(s: State, token: Api.HttpReply<Json>, init: Api.HttpReply<InitBody>): (t: State)
    ensures |t.messages| == 1 && t.messages[0].role == Assistant && t.messages[0].text != ""
    ensures !BootSucceeded(token, init) ==> t.messages[0].text == Glitch
    ensures BootSucceeded(token, init) ==>
              t.messages[0].text == (if GreetingText(init.body.value) != "" then GreetingText(init.body.value) else Glitch)
    ensures !BootSucceeded(token, init) ==> t.isPremium == s.isPremium && t.remaining == s.remaining
    ensures BootSucceeded(token, init) ==>
              var u := init.body.value.usage;
              t.isPremium == (u.Some? && TruthyOpt(u.value.isPremium))
              && t.remaining == (if u.Some? then u.value.remaining else None)
    ensures t.loading == s.loading && t.showModal == s.showModal && t.input == s.input
    ensures t.tone == s.tone && t.mode == s.mode && t.sessionId == s.sessionId
    ensures t.nextId == s.nextId + 1
  {
    var greet := s.(messages := [Msg(s.nextId, Assistant, Glitch)], nextId := s.nextId + 1);
    if !BootSucceeded(token, init) then greet
    else
      var b := init.body.value;
      var text := GreetingText(b);
      var u := b.usage;
      greet.(messages := [Msg(s.nextId, Assistant, if text != "" then text else Glitch)],
             isPremium := u.Some? && ToBoolean(u.value.isPremium),
             remaining := if u.Some? then u.value.remaining else None)
  }

  /** The HTTP status of neither bootstrap call matters; only the body's `ok` flag does. */
  lemma BootIgnoresStatus(s: State, t1: int, t2: int, tb: Option<Json>, i1: int, i2: int, body: Option<InitBody>)
    ensures Boot(s, Api.Response(t1, tb), Api.Response(i1, body)) == Boot(s, Api.Response(t2, None), Api.Response(i2, body))
  {
  }

  /** A greeting is shown trimmed and never blank. */
  lemma GreetingIsTrimmed(s: State, token: Api.HttpReply<Json>, init: Api.HttpReply<InitBody>)
    ensures var text := Boot(s, token, init).messages[0].text; Trim(text) == text && text != ""
  {
    var text := Boot(s, token, init).messages[0].text;
    if text != Glitch {
      TrimIdempotent(init.body.value.reply.value.s);
    } else {
      assert Glitch[0] == 'H' && Glitch[|Glitch| - 1] == '.';
      TrimOfTrimmed(Glitch);
    }
  }

  // ---------------------------------------------------------------- quota label

  const Unknown := "Replies left: " + Mojibake
  const Unlimited := "Premium: unlimited replies"

  /** The text under the chat panel that reports the usage snapshot. */
  function QuotaLabel(isPremium: bool, remaining: Option<int>): (shown: string)
    ensures isPremium ==> shown == Unlimited
    ensures !isPremium && remaining.None? ==> shown == Unknown
    ensures !isPremium && remaining.Some? ==> shown == IntToString(remaining.value) + " replies left today"
  {
    if isPremium then Unlimited
    else if remaining.None? then Unknown
    else IntToString(remaining.value) + " replies left today"
  }

  /** For a free user the label determines the snapshot: different counts never read the same. */
  lemma QuotaLabelFaithful(r1: Option<int>, r2: Option<int>)
    requires QuotaLabel(false, r1) == QuotaLabel(false, r2)
    ensures r1 == r2
  {
    var suffix := " replies left today";
    if r1.Some? && r2.Some? {
      var a, b := IntToString(r1.value), IntToString(r2.value);
      assert |a| == |b|;
      assert a == (a + suffix)[..|a|];
      assert b == (b + suffix)[..|b|];
      IntToStringInjective(r1.value, r2.value);
    }
  }

  // ---------------------------------------------------------------- screenshot text

  /** The parsed body of the `/screenshot-coach` reply; only the fields the page reads. */
  datatype ScreenshotBody = ScreenshotBody(
    ok: Option<Json>,
    error: Option<string>,
    summary: Option<string>,
    vibe: Option<string>,
    advice: Option<string>,
    bestReply: Option<string>,
    altReplies: Option<seq<string>>,
    warning: Option<string>,
    question: Option<string>)

  /** What the upload call yields: an error thrown with its `name` and `message`, or the parsed body (`None` for JSON `null`). */
  datatype UploadReply = UploadThrown(name: string, message: string) | UploadParsed(body: Option<ScreenshotBody>)

  function Part(heading: string, v: Option<string>): (ps: seq<string>)
    ensures |ps| <= 1
    ensures |ps| == 1 <==> TruthyStr(v)
    ensures |ps| == 1 ==> ps[0] == heading + v.value
  {
    if TruthyStr(v) then [heading + v.value] else []
  }

  /** The candidate lines of an analysis in display order, each with whether it is shown. */
  function AnalysisCandidates(b: ScreenshotBody): seq<(bool, string)> {
    var alts := b.altReplies.GetOr([]);
    [ (TruthyStr(b.summary), "Summary: " + b.summary.GetOr("")),
      (TruthyStr(b.vibe), "Vibe: " + b.vibe.GetOr("")),
      (TruthyStr(b.advice), "Advice: " + b.advice.GetOr("")),
      (TruthyStr(b.bestReply), "Best reply (copy/paste): " + b.bestReply.GetOr("")),
      (|alts| > 0, "Alternates: " + Join(alts, " || ")),
      (TruthyStr(b.warning), "Warning: " + b.warning.GetOr("")),
      (TruthyStr(b.question), "Question: " + b.question.GetOr("")) ]
  }

  /** The texts of the candidates that are shown, in their order. */
  function Shown(cs: seq<(bool, string)>): (ps: seq<string>)
    ensures |ps| <= |cs|
  {
    if cs == [] then [] else (if cs[0].0 then [cs[0].1] else []) + Shown(cs[1..])
  }

  /** The labelled lines of an analysis, in the fixed order; absent or empty fields are skipped. */
  function AnalysisParts(b: ScreenshotBody): (ps: seq<string>)
    ensures ps == Shown(AnalysisCandidates(b))
    ensures |ps| <= 7
    ensures TruthyStr(b.summary) ==> |ps| > 0 && ps[0] == "Summary: " + b.summary.value
    ensures ((forall v | v in [b.summary, b.vibe, b.advice, b.bestReply, b.warning, b.question] :: !TruthyStr(v))
             && (b.altReplies.None? || b.altReplies.value == [])) ==> ps == []
  {
    var alts := if b.altReplies.Some? && |b.altReplies.value| > 0 then ["Alternates: " + Join(b.altReplies.value, " || ")] else [];
    var ps := Part("Summary: ", b.summary) + (Part("Vibe: ", b.vibe) + (Part("Advice: ", b.advice)
      + (Part("Best reply (copy/paste): ", b.bestReply) + (alts + (Part("Warning: ", b.warning) + Part("Question: ", b.question))))));
    ShownCandidates(b);
    ps
  }

  /** Unfolds `Shown` over the seven candidates, one at a time. */
  lemma {:induction false} ShownCandidates(b: ScreenshotBody)
    ensures var alts := if b.altReplies.Some? && |b.altReplies.value| > 0 then ["Alternates: " + Join(b.altReplies.value, " || ")] else [];
            Shown(AnalysisCandidates(b))
              == Part("Summary: ", b.summary) + (Part("Vibe: ", b.vibe) + (Part("Advice: ", b.advice)
                 + (Part("Best reply (copy/paste): ", b.bestReply) + (alts + (Part("Warning: ", b.warning) + Part("Question: ", b.question))))))
  {
    var cs := AnalysisCandidates(b);
    var alts := if b.altReplies.Some? && |b.altReplies.value| > 0 then ["Alternates: " + Join(b.altReplies.value, " || ")] else [];
    var t6 := Shown(cs[6..]);
    assert t6 == Part("Question: ", b.question) by { ShownStep(cs, 6); assert cs[7..] == []; }
    var t5 := Shown(cs[5..]);
    assert t5 == Part("Warning: ", b.warning) + t6 by { ShownStep(cs, 5); }
    var t4 := Shown(cs[4..]);
    assert t4 == alts + t5 by { ShownStep(cs, 4); }
    var t3 := Shown(cs[3..]);
    assert t3 == Part("Best reply (copy/paste): ", b.bestReply) + t4 by { ShownStep(cs, 3); }
    var t2 := Shown(cs[2..]);
    assert t2 == Part("Advice: ", b.advice) + t3 by { ShownStep(cs, 2); }
    var t1 := Shown(cs[1..]);
    assert t1 == Part("Vibe: ", b.vibe) + t2 by { ShownStep(cs, 1); }
    assert Shown(cs) == Part("Summary: ", b.summary) + t1 by { ShownStep(cs, 0); assert cs[0..] == cs; }
  }

  /** One step of `Shown` from position `i`. */
  lemma ShownStep(cs: seq<(bool, string)>, i: nat)
    requires i < |cs|
    ensures Shown(cs[i..]) == (if cs[i].0 then [cs[i].1] else []) + Shown(cs[i + 1..])
  {
    assert cs[i..][1..] == cs[i + 1..];
  }

  /** The assistant text the upload handler appends for a screenshot analysis. */
  function ScreenshotText(r: UploadReply): (text: string)
    ensures r.UploadThrown? ==> text == "Error: " + (if r.message != "" then r.message else r.name)
    ensures r.UploadParsed? && (r.body.None? || !TruthyOpt(r.body.value.ok)) ==>
              text == "Error: " + (if r.body.Some? && TruthyStr(r.body.value.error) then r.body.value.error.value else "Unknown")
    ensures r.UploadParsed? && r.body.Some? && TruthyOpt(r.body.value.ok) ==>
              text == Join(AnalysisParts(r.body.value), "\n\n")
  {
    match r
    case UploadThrown(name, message) =>
      // `err?.message || String(err)`, where `String(err)` is the bare name when the message is empty
      "Error: " + Or(Some(message), Some(name)).value
    case UploadParsed(body) =>
      if body.None? || !TruthyOpt(body.value.ok) then
        "Error: " + (if body.Some? then Or(body.value.error, Some("Unknown")).value else "Unknown")
      else Join(AnalysisParts(body.value), "\n\n")
  }

  const UploadedCaption := "Uploaded screenshot"

  /**
   * `handleImageUpload(file)` once the upload settles: a user entry standing
   * for the picture, then the assistant's analysis or error text.
   */
  function UploadScreenshot(s: State, r: UploadReply): (t: State)
    ensures |t.messages| == |s.messages| + 2 && t.messages[..|s.messages|] == s.messages
    ensures t.messages[|s.messages|].role == User && t.messages[|s.messages|].text == UploadedCaption
    ensures t.messages[|s.messages| + 1].role == Assistant && t.messages[|s.messages| + 1].text == ScreenshotText(r)
    ensures t.loading == s.loading && t.isPremium == s.isPremium && t.remaining == s.remaining && t.input == s.input
    ensures t.showModal == s.showModal && t.tone == s.tone && t.mode == s.mode && t.sessionId == s.sessionId
  {
    var added := [Msg(s.nextId, User, UploadedCaption), Msg(s.nextId + 1, Assistant, ScreenshotText(r))];
    assert (s.messages + added)[..|s.messages|] == s.messages;
    s.(messages := s.messages + added, nextId := s.nextId + 2)
  }

  /** An analysis whose every field is empty is shown as an empty assistant message. */
  lemma EmptyAnalysisShowsNothing(ok: Json)
    requires Truthy(ok)
    ensures ScreenshotText(UploadParsed(Some(ScreenshotBody(Some(ok), None, None, None, None, None, None, None, None)))) == ""
  {
  }

  // ---------------------------------------------------------------- upgrade

  /** What the upgrade button does outside the page's state: open the checkout page, or alert. */
  datatype UpgradeEffect = OpenTab(url: string) | Alert(text: string)

  const CheckoutAlert := "Failed to start checkout. Please try again."

  /** The effect of `handleUpgrade` for the way `createCheckoutSession` settled. */
  function UpgradeOutcome(r: Api.HttpReply<Checkout.CheckoutBody>): (effect: UpgradeEffect)
    ensures effect.OpenTab? <==> Checkout.CheckoutResult(r).Success?
    ensures effect.OpenTab? ==> effect.url == Checkout.CheckoutResult(r).value && effect.url != ""
    ensures effect.Alert? ==> effect.text == CheckoutAlert
  {
    match Checkout.CheckoutResult(r)
    case Success(url) => OpenTab(url)
    case Failure(_) => Alert(CheckoutAlert)
  }

  /**
   * The modal's checkout button: `handleUpgrade` catches its own errors, so
   * the modal closes whatever the outcome.
   */
  function Upgrade(s: State, r: Api.HttpReply<Checkout.CheckoutBody>): (res: (State, UpgradeEffect))
    ensures !res.0.showModal
    ensures res.0.messages == s.messages && res.0.loading == s.loading
    ensures res.0.isPremium == s.isPremium && res.0.remaining == s.remaining
    ensures res.0.input == s.input && res.0.tone == s.tone && res.0.mode == s.mode && res.0.sessionId == s.sessionId
    ensures res.1 == UpgradeOutcome(r)
  {
    (s.(showModal := false), UpgradeOutcome(r))
  }
}

=== FILE: pill_tabs.dfy ===
/**
 * The mode tab strip (src/components/ui/PillTabs.tsx): arrow keys move the
 * selection around the tabs with wrap-around, a click selects a tab, and a
 * tab is highlighted exactly when its value is the current one.
 */
module PillTabs {
  import opened Wrappers

  /** One tab: the value reported to `onChange` and its `label` text. */
  datatype PillOption = PillOption(value: string, caption: string)

  /** JavaScript's `a % b`: the remainder of division truncated toward zero (it takes the sign of `a`). */
  function JsRem(a: int, b: int): (r: int)
    requires b != 0
    ensures a >= 0 && b > 0 ==> r == a % b
    ensures a < 0 && b > 0 ==> -b < r <= 0 && r == -((-a) % b)
  {
    var m := (if a < 0 then -a else a) % (if b < 0 then -b else b);
    if a < 0 then -m else m
  }

  /** Division with remainder is unique: a remainder in range is the remainder. */
  lemma ModUnique(x: int, n: int, q: int, r: int)
    requires n > 0 && 0 <= r < n && x == q * n + r
    ensures x % n == r
  {
    var q0, r0 := x / n, x % n;
    var d := q - q0;
    assert d * n == r0 - r by {
      assert x == q0 * n + r0;
      assert q * n - q0 * n == d * n;
    }
  }

  /** One step of a modular counter: adding one to the remainder wraps at `n`. */
  lemma ModSucc(a: int, n: int)
    requires n > 0
    ensures (a + 1) % n == if a % n == n - 1 then 0 else a % n + 1
  {
    var q, r := a / n, a % n;
    assert a == q * n + r;
    if r == n - 1 {
      ModUnique(a + 1, n, q + 1, 0);
    } else {
      ModUnique(a + 1, n, q, r + 1);
    }
  }

  /** The tab an arrow key on tab `idx` of `n` moves to: `(idx + 1) % n` or `(idx - 1 + n) % n`. */
  function KeyTarget(key: string, idx: int, n: int): (t: Option<int>)
    requires 0 <= idx < n
    ensures t.Some? <==> key == "ArrowRight" || key == "ArrowLeft"
    ensures t.Some? ==> 0 <= t.value < n
    ensures key == "ArrowRight" ==> t == Some(if idx == n - 1 then 0 else idx + 1)
    ensures key == "ArrowLeft" ==> t == Some(if idx == 0 then n - 1 else idx - 1)
  {
    if key == "ArrowRight" then
      ModUnique(idx, n, 0, idx);
      ModSucc(idx, n);
      Some(JsRem(idx + 1, n))
    else if key == "ArrowLeft" then
      if idx == 0 then
        ModUnique(n - 1, n, 0, n - 1);
        Some(JsRem(idx - 1 + n, n))
      else
        ModUnique(idx - 1 + n, n, 1, idx - 1);
        Some(JsRem(idx - 1 + n, n))
    else None
  }

  /** `handleKey(e, idx)`: the value handed to `onChange`, `None` when the key is ignored. */
  function HandleKey(options: seq<PillOption>, key: string, idx: int): (v: Option<string>)
    requires 0 <= idx < |options|
    ensures v.Some? <==> key == "ArrowRight" || key == "ArrowLeft"
    ensures key == "ArrowRight" ==> v == Some(options[if idx == |options| - 1 then 0 else idx + 1].value)
    ensures key == "ArrowLeft" ==> v == Some(options[if idx == 0 then |options| - 1 else idx - 1].value)
  {
    var t := KeyTarget(key, idx, |options|);
    if t.Some? then Some(options[t.value].value) else None
  }

  /** ArrowLeft undoes ArrowRight, and ArrowRight undoes ArrowLeft. */
  lemma ArrowsAreInverse(idx: int, n: int)
    requires 0 <= idx < n
    ensures KeyTarget("ArrowLeft", KeyTarget("ArrowRight", idx, n).value, n) == Some(idx)
    ensures KeyTarget("ArrowRight", KeyTarget("ArrowLeft", idx, n).value, n) == Some(idx)
  {
  }

  /** The tab reached from `idx` after `k` presses of ArrowRight. */
  function Rights(idx: int, k: nat, n: int): (j: int)
    requires 0 <= idx < n
    ensures 0 <= j < n
  {
    if k == 0 then idx else KeyTarget("ArrowRight", Rights(idx, k - 1, n), n).value
  }

  /** `k` presses of ArrowRight advance the selection by `k` modulo the number of tabs. */
  lemma {:induction false} RightsAdvanceModulo(idx: int, k: nat, n: int)
    requires 0 <= idx < n
    ensures Rights(idx, k, n) == (idx + k) % n
  {
    if k > 0 {
      var m, r := idx + k - 1, Rights(idx, k - 1, n);
      RightsAdvanceModulo(idx, k - 1, n);
      assert r == m % n;
      ModSucc(m, n);
      calc {
        Rights(idx, k, n);
        KeyTarget("ArrowRight", r, n).value;
        if r == n - 1 then 0 else r + 1;
        (m + 1) % n;
      }
    }
  }

  /** Pressing ArrowRight once per tab comes back to the starting tab. */
  lemma FullCycleReturns(idx: int, n: int)
    requires 0 <= idx < n
    ensures Rights(idx, n, n) == idx
  {
    RightsAdvanceModulo(idx, n, n);
    ModUnique(idx + n, n, 1, idx);
  }

  /** A tab is highlighted exactly when its value is the current value. */
  predicate Selected(opt: PillOption, value: string) {
    opt.value == value
  }

  /** Clicking tab `i`: the value handed to `onChange`. */
  function Click(options: seq<PillOption>, i: int): (v: string)
    requires 0 <= i < |options|
    ensures Selected(options[i], v)
  {
    options[i].value
  }

  /** With distinct values, the clicked tab is the one and only highlighted tab once the value is adopted. */
  lemma ClickSelectsOnlyThatTab(options: seq<PillOption>, i: int)
    requires 0 <= i < |options|
    requires forall a, b | 0 <= a < b < |options| :: options[a].value != options[b].value
    ensures forall j | 0 <= j < |options| :: Selected(options[j], Click(options, i)) <==> j == i
  {
    forall j | 0 <= j < |options| ensures Selected(options[j], Click(options, i)) ==> j == i {
      if j < i { assert options[j].value != options[i].value; }
      else if j > i { assert options[i].value != options[j].value; }
    }
  }
}

=== FILE: wrappers.dfy ===
/** The optional value and the success-or-error outcome shared by every module of the model. */
module Wrappers {

  /** A JavaScript value that may be `undefined` (or `null`): `None` is the missing value. */
  datatype Option<+T> = None | Some(value: T) {

    /** `this ?? default` */
    function GetOr(default: T): T {
      match this
      case Some(v) => v
      case None => default
    }
  }

  /** The outcome of an async call that either resolves with a value or throws an error. */
  datatype Result<+R, +E> = Success(value: R) | Failure(error: E)
}
